=== FILE: README.md ===
# Floor-plan analyser: a Dafny model

An ASCII floor plan is a grid of characters. Walls are drawn with
separator glyphs (`| - + /` by default), rooms carry a parenthesised
label such as `(kitchen)` on one of their rows, and the letters
`W P S C` mark chairs. The analyser has three steps:

1. It loads the grid. Every line loses its trailing whitespace, and
   every row is padded with spaces to the longest line.
2. It scans the grid in row-major order. From each cell that is still
   visitable it runs a 4-connected breadth-first search, which marks the
   region, counts its chairs and takes the region's name from the first
   label cell it dequeues.
3. Named regions are folded into a room registry, with repeated names
   summed and unnamed regions dropped. The registry is then rendered as a
   dictionary: `"total"` first, then the rooms in sorted order, each
   tally projected onto the chair order W, P, S, C.

The model has seven modules:

- `Wrappers`: `Option` and `Result`.
- `Grid`: cells, the plan, the default wall and chair sets, and character
  counting over cells.
- `Labels`: `get_room_name`, written as an explicit scan with the
  semantics of `finditer` over the pattern `\(([^)]+)\)`.
- `Registry`: the room registry and the merge rule.
- `Parser`: the search, `explore_coordinate` and `parse`.
- `Format`: `format_parsed_floor_plan`.
- `Reader`: the list processing of `read_floor_plan`.

Some modelling choices:

- The visited matrix is the set of marked cells.
- The FIFO queue is the list of every cell enqueued so far, plus the
  index of the next cell to dequeue. That list ends as the dequeue order.
- The parser's mutable registry is a value of type
  `map<string, map<char, nat>>`, threaded through the calls.
- The rendered dictionary is a sequence of entries. `Put` and `Update`
  follow Python's insertion-ordered `dict` assignment and `dict.update`.

## Model

| member | source | states |
|---|---|---|
| Parser.Parse | floor_plan/parser.py:25-31 | After the scan, an in-bounds cell is marked exactly when it is not a wall, and nothing outside the grid is marked. The marked cells fall into a dropped part and an owned part. The dropped part is closed under open neighbours, and none of its label cells yields a name. Every owned cell has an owning label cell, which owns itself and yields a non-empty name, and open neighbours share one owner. The ghost maps `seed` and `depth` are defined on the owned cells. A cell and its owner have the same seed, and every seed is an owned cell. Each owned cell other than a seed has an open owned neighbour with the same seed and a smaller depth. No label cell with the same seed as a cell, and a smaller depth than that cell's owner, yields a name. The registry's rooms are exactly the starting rooms plus the names the owners read. For each room and chair type, the count equals the starting count plus the chairs on the cells whose owner reads that room's name. The registry has only grown, and every new name is non-empty and free of `)`. The sum over all rooms rises by the chairs on the owned cells, and other characters add nothing. |
| Parser.ScanRow | floor_plan/parser.py:29-31 | The inner column loop keeps the scan state. Afterwards every open cell of the row, and of every earlier row, is marked. |
| Parser.ScanCell | floor_plan/parser.py:30-31 | Calling `explore_coordinate` when the cell is visitable keeps the scan state and the ownership of counted cells. It marks the cell if it is open and never unmarks a cell. |
| Parser.ScanStep | floor_plan/parser.py:30-31 | The region returned by `explore_coordinate` keeps the scan invariants `Scanned`, `Owned`, `Rooted` and `FirstOwner` over the grown marks and registry, whether or not it is named. |
| Parser.ScanAdopt | floor_plan/parser.py:45-58 | A named region, whose label is the first name-yielding label of its dequeue order, keeps the scan invariants `Scanned`, `Owned`, `Rooted` and `FirstOwner` with the dropped part unchanged. |
| Parser.ScanNamed | floor_plan/parser.py:45-53 | Folding a named region into the scan adds its chairs to the sum over rooms, and the region's cells join the counted cells. |
| Parser.ScanUnnamed | floor_plan/parser.py:59-62 | An unnamed region leaves the sums unchanged. Its cells join the dropped set, and none of its label cells yields a name. |
| Parser.ExploreCoordinate | floor_plan/parser.py:33-64 | A non-visitable cell changes neither the marks nor the registry, names nothing and searches nothing. A visitable cell starts the search: the dequeue order begins with it and lists the newly marked cells, in bounds and without repeats. Each later cell neighbours its parent, the earliest dequeued cell it neighbours, and parents never decrease. Cells found from the same parent come in the order up, down, left, right. The new cells are open and closed under open neighbours. The name is the first name yielded by a label cell in dequeue order. A name counts when it is non-empty. If it counts, the label at dequeue position `first` yields exactly that name, no earlier label cell yields one, and the registry's rooms become the old rooms plus that name. A new room's tally has exactly the chair types as keys. That room's count of each chair type rises by the region's tiles of that chair, and every other room keeps its counts. Without a name, the registry is unchanged and no label cell of the region yields a name. The sum over rooms moves the same way. Tally keys stay within the chair types. New room names are non-empty and contain no `)`. |
| Parser.MergeRegion | floor_plan/parser.py:45-62 | Merging a region's tally changes only the named room: its count of each chair type rises by the region's tiles of that chair. The sum over rooms rises likewise, and tally keys stay within the chair types. |
| Parser.RegionApart | floor_plan/parser.py:112-117 | When the earlier marks are closed under open neighbours, a new region that is also closed touches none of them. All marks are closed afterwards. |
| Parser.OwnNamed | floor_plan/parser.py:45-58 | Folding a named region makes the label that named it the owner of all its cells. Open neighbours still share one owner, and the owned cells are still the marked cells outside the dropped part. Every owner's name is registered, and every newly registered room owns a cell. |
| Parser.AdoptShape | floor_plan/parser.py:45-58 | After adopting a region under its label, the marks stay closed under open neighbours. The owned cells are the marked cells outside the dropped part, every owner is a self-owned label yielding a name, and open neighbours share one owner. |
| Parser.RegisteredExtend | floor_plan/parser.py:45-58 | After a region is adopted under a label reading `room` and `room` is registered, every owner's name is registered. Every newly registered room owns at least one cell. |
| Parser.RegistryKeys | floor_plan/parser.py:45-58 | The registry's rooms are exactly the starting rooms plus the names the owning labels read. |
| Parser.RootedExtend | floor_plan/parser.py:89-117 | A region found by one search and owned by a label inside it is rooted at the search's start. Each cell's depth is its dequeue position. Old cells keep their seeds and depths. |
| Parser.DescendsAdopt | floor_plan/parser.py:102-117 | After a region is adopted with its search's start as seed and its dequeue positions as depths, the seed and depth maps have exactly the owned cells as keys. Every owned cell other than a seed still has an open owned neighbour with the same seed and a smaller depth. |
| Parser.FirstOwnerExtend | floor_plan/parser.py:102-110 | Suppose a region is adopted under the label at dequeue position `first`, and no earlier label cell in its order yields a name. Then seeds stay owned cells, and no label cell with a cell's seed below its owner's depth yields a name. |
| Parser.FirstLabelsExtend | floor_plan/parser.py:102-110 | Suppose the grown maps keep the old cells' owners, seeds and depths. Suppose they give the region's cells the new owner, the search's start as seed and their dequeue positions as depths. Then no label cell with a cell's seed, below its owner's depth, yields a name. |
| Parser.StepToward | floor_plan/parser.py:102-117 | An owned cell other than its seed has an open owned neighbour with the same seed at a smaller depth. |
| Parser.WalkFromSeed | floor_plan/parser.py:102-117 | Every open owned cell is reached from its seed by a walk through open owned cells, each step between neighbours. |
| Parser.OwnerConnected | floor_plan/parser.py:39-58 | A walk through open owned cells joins each owned cell's owning label to the cell. The label therefore lies in the region the cell belongs to. |
| Parser.ReverseWalk | floor_plan/parser.py:112-117 | A walk read backwards is still a walk. |
| Parser.CountsExtend | floor_plan/parser.py:45-53 | After a region named from a label is merged, each room's count is still the starting count plus the chairs on the cells its labels own. |
| Parser.OwnUnnamed | floor_plan/parser.py:59-62 | An unnamed region joins the dropped part and leaves ownership and counts unchanged. |
| Parser.DroppedClosed | floor_plan/parser.py:25-31 | Since ownership passes between open neighbours, the cells left unowned are closed under open neighbours too. |
| Parser.EnqueueNeighbours | floor_plan/parser.py:112-117 | The added cells are exactly the neighbours that were visitable before the step (in bounds, unmarked, not a wall). They come in the order up, down, left, right. The marks grow by exactly the added cells, and afterwards every open neighbour is marked. |
| Parser.EnqueueEach | floor_plan/parser.py:112-117 | Over a list of distinct cells, the cells added are those of the list that were visitable at the start, in list order. Marking a cell does not change whether a later one is visitable. Every open cell of the list ends up marked. |
| Parser.VisitablesStep | floor_plan/parser.py:112-117 | In a duplicate-free list, the next cell is not among the cells already kept. The kept list grows by that cell exactly when it is visitable. |
| Parser.Step | floor_plan/parser.py:102-117 | One dequeue step keeps the search state and extends the queue without rewriting it. It preserves the sum of unmarked cells and queue length, which bounds the loop. |
| Parser.Drain | floor_plan/parser.py:96-117 | The `while queue` loop ends with every enqueued cell dequeued. The start cell comes first, the tally and name are the folds over the dequeue order, and every dequeued cell has its open neighbours marked. |
| Parser.Explore | floor_plan/parser.py:89-119 | The search marks cells only when enqueuing them, never a wall, and no cell twice. At most `rows * cols` cells are enqueued, all in bounds. The marked region is closed under open neighbours. Every cell after the first is a neighbour of its parent, an earlier cell, and parents never decrease along the dequeue order. A cell's parent is the earliest dequeued cell it neighbours. Cells found from the same parent come in the order up, down, left, right. Each chair type's count equals the number of region cells showing that character, with every chair type present. The name is the lookup of the first label cell in dequeue order that yields one. An empty grid gives no name and an empty tally. |
| Parser.StepFoundFirst | floor_plan/parser.py:112-117 | A dequeue step appends the enqueued cells with the dequeued cell as parent. Afterwards each cell's parent is still the earliest cell in the order that it neighbours. |
| Parser.StepSiblings | floor_plan/parser.py:112-117 | A dequeue step appends cells enqueued in the order up, down, left, right. Afterwards all cells sharing a parent are still in that order. |
| Parser.VisitablesInListOrder | floor_plan/parser.py:112-117 | The visitable cells picked from a duplicate-free list keep the list's order. |
| Parser.FirstLabel | floor_plan/parser.py:106-110 | When a name is captured, there is a dequeue position whose label cell yields it, and no label cell before that position yields a name. |
| Parser.FirstNameIsFirstLabel | floor_plan/parser.py:106-110 | The captured name comes from the first label cell, in dequeue order, whose lookup yields a name. A label cell yielding nothing does not block a later one. With no such cell, no name is captured. |
| Parser.TallyOfCounts | floor_plan/parser.py:97-107 | The running tally, started at zero for every chair type, holds for each chair type the number of dequeued cells showing it. |
| Parser.MarkingShrinks | floor_plan/parser.py:115-117 | Marking distinct unmarked in-bounds cells lowers the count of unmarked grid cells by exactly their number. |
| Grid.CellsBound | floor_plan/parser.py:100-117 | A duplicate-free sequence of in-bounds cells is at most `rows * cols` long. |
| Grid.OccurrencesAreTiles | floor_plan/parser.py:102-107 | Counting a character along a duplicate-free dequeue order equals counting it over the set of those cells. |
| Labels.MatchAt | floor_plan/parser.py:82-83 | A match starts at `i` exactly when `row[i]` is `(` and the first `)` after it lies at least two positions further on. The closing index is then that `)`. |
| Labels.FindFromSound | floor_plan/parser.py:83-86 | Any name found from a position is the inside of a label at or after that position whose span covers the column. It is non-empty and contains no `)`. |
| Labels.RoomName | floor_plan/parser.py:80-87 | A name is returned exactly when some label span covers the column. It is then the text strictly between the parentheses of the leftmost such label, so it is non-empty and contains no `)`. |
| Labels.ExampleDen | floor_plan/parser.py:80-87 | In a row holding `(den)` between two walls, the `(` and the `)` both yield `den`, and the closing wall yields nothing. |
| Labels.ExampleNested | floor_plan/parser.py:80-87 | An inner `(` belongs to the first match (`((a)` yields `(a`). `()` is not a label, and the search resumes right after its `(`. |
| Registry.ZeroTally | floor_plan/parser.py:97 | The fresh tally has exactly the chair types as keys, each at zero. |
| Registry.AddCounts | floor_plan/parser.py:50-53 | The merged tally's keys are the union of the two key sets. Each count is the pointwise sum, with a missing key counting 0. |
| Registry.Merge | floor_plan/parser.py:45-62 | An unnamed region leaves the registry unchanged. A named region adds its name to the key set, and a new name receives exactly the region's tally. Every count goes up by the region's count for that name and by nothing elsewhere. Every other room is untouched. |
| Registry.MergeGrows | floor_plan/parser.py:45-58 | Merging never removes a room and never lowers a count. |
| Registry.MergeKeepsChairKeys | floor_plan/parser.py:50-58 | Merging a tally over the chair types keeps every room's keys within the chair types. |
| Registry.MergeCommutes | floor_plan/parser.py:45-62 | Merging two regions in either order gives the same registry. |
| Registry.MergeTotal | floor_plan/parser.py:45-62 | For each character, the sum over all rooms rises by the region's count when the region is named, and by nothing otherwise. |
| Format.LexLeTotal | floor_plan/floor_plan.py:48 | Any two strings are comparable under Python's string order. |
| Format.LexLeTransitive | floor_plan/floor_plan.py:48 | Python's string order is transitive. |
| Format.LexLeAntisymmetric | floor_plan/floor_plan.py:48 | Strings that are each at most the other are equal. |
| Format.SortedKeys | floor_plan/floor_plan.py:48 | `sorted(keys)` lists every key exactly once, in strictly increasing order. |
| Format.PutFresh | floor_plan/floor_plan.py:51 | Assigning a new key appends the entry at the end. |
| Format.PutExisting | floor_plan/floor_plan.py:61-62 | Assigning an existing key replaces its value in place. |
| Format.UpdateFresh | floor_plan/floor_plan.py:62 | Updating with distinct fresh keys appends them in order. |
| Format.UpdateSingletonMiss | floor_plan/floor_plan.py:61-62 | Without a room named "total", the literal entry stays first and the rooms follow in order. |
| Format.UpdateSingletonHit | floor_plan/floor_plan.py:61-62 | A room named "total" takes the first position with its own counts, and the other rooms follow in order. |
| Format.Project | floor_plan/floor_plan.py:46-50 | A projected tally has exactly the entries W, P, S, C in that order, with absent chairs at 0. |
| Format.SumTalliesTotal | floor_plan/floor_plan.py:52-53 | Adding every room once, in any duplicate-free order, adds the sum over all rooms to each count. |
| Format.Format | floor_plan/floor_plan.py:40-64 | The rendered dictionary starts with "total", followed by every other room exactly once in strictly increasing name order. Each room's counts are projected onto W, P, S, C. The first entry holds the W, P, S, C counts of the room named "total" if there is one, and otherwise the sums over all rooms. |
| Format.FormatLayout | floor_plan/floor_plan.py:40-64 | The rendered dictionary starts with "total", followed by every other room exactly once in strictly increasing name order. Each room's counts are copied from the registry, projected onto W, P, S, C. Its length is the number of rooms, plus one when no room is named "total". |
| Format.FormatTotals | floor_plan/floor_plan.py:42-62 | The first entry shows W, P, S, C in order. Each count is the sum of that chair over all rooms, or the counts of the room named "total" if there is one. |
| Reader.RStrip | floor_plan/file_reader.py:15 | The stripped line is a prefix of the line and does not end in whitespace. Only whitespace follows it in the line. |
| Reader.IsRStripUnique | floor_plan/file_reader.py:15 | There is exactly one such stripping of a line. |
| Reader.RStripIdempotent | floor_plan/file_reader.py:15 | Stripping twice strips nothing more. |
| Reader.MaxLen | floor_plan/file_reader.py:17 | The result bounds every row length and equals the length of some row. |
| Reader.Pad | floor_plan/file_reader.py:18 | The padded row has exactly `cols` characters: the row followed only by spaces. |
| Reader.Read | floor_plan/file_reader.py:15-18 | No lines gives an error (`max` of an empty sequence). Otherwise `rows` is the line count, and `cols` is the longest stripped line, which every stripped line fits. Every row is `cols` wide: its stripped line followed only by spaces. |
| Reader.ReadRectangular | floor_plan/file_reader.py:15-18 | The loaded grid is rectangular, so the parser can run on it. Stripping any of its rows gives back the stripped input line. |
| Reader.RStripPadded | floor_plan/file_reader.py:18 | Padding a stripped line with spaces and stripping it again gives the stripped line back. |

## Left out

- File opening, utf-8-sig decoding with BOM removal, and the
  `FileNotFoundError` re-raise in `read_floor_plan` are I/O. The model
  starts from the sequence of lines the file yields.
- The `FloorPlanError` wrapping in `read_floor_plan_txt` is exception
  plumbing around I/O.
- `print_floor_plan` and `main.py` are console output, argument parsing
  and the interactive loop.
- `logging.debug` calls are left out because they have no effect on the
  results.
- Python's `re` engine is left out. The one pattern used is replaced by
  an explicit scan with the same matches (`Labels`).
- Sharing of the stored tally dictionary between the search result and
  the registry (`room_mappings[area_name] = chairs`) is not modelled,
  because the registry is a value.
- The search's early return `None, []` on an empty grid returns a list
  where the other path returns a dictionary. It is modelled as an empty
  tally.
- `Parser.ExploreCoordinate` requires an in-bounds cell. The source
  indexes `visited[x][y]` unguarded, and `parse` only passes in-bounds
  cells.
- `Format.Format`, `Format.FormatLayout` and `Format.FormatTotals` require every tally
  key to be a chair type. Otherwise `total_chairs[chair] += count`
  raises `KeyError`, and that failure is not modelled.
- That formatting leaves `room_mappings` unchanged holds trivially,
  because `Format` is a pure function of the registry. No separate
  statement is made.
- The end-to-end example (W 14, P 7, S 3, C 1 over eight rooms) is left
  out because its input plan file is not part of this model.
- Parser.Parse: the contract does not tie the ghost `seed` and `depth`
  maps to the searches that marked the cells. It states only how they
  relate: a shared seed, steps to a smaller depth, and no name-yielding
  label below the owner's depth. In the proof, the seed is the search's
  start cell and the depth is the cell's dequeue position. The
  breadth-first shape of each dequeue order is stated by
  `Parser.Explore` and `Parser.ExploreCoordinate` and is not carried
  through the scan.
- Integers are unbounded. Python's integers are too, so no wrap-around
  is modelled.

=== FILE: format.dfy ===
/** `FloorPlan.format_parsed_floor_plan`: the registry rendered as an
    insertion-ordered dictionary whose first entry is "total", followed by
    the rooms in sorted order, every tally projected onto the fixed chair
    order W, P, S, C. */
module Format {
  import opened Registry

  /** The column order of every rendered tally. */
  const ChairOrder: seq<char> := ['W', 'P', 'S', 'C']

  // ---------------------------------------------------------------------
  // String order

  /** Python's `<=` on `str`: lexicographic by code point, a proper prefix
      before any of its extensions. */
  predicate LexLe(a: string, b: string)
    decreases |a|
  {
    |a| == 0 || (|b| > 0 && (a[0] < b[0] || (a[0] == b[0] && LexLe(a[1..], b[1..]))))
  }

  predicate LexLt(a: string, b: string) {
    LexLe(a, b) && a != b
  }

  lemma {:induction false} LexLeReflexive(a: string)
    ensures LexLe(a, a)
    decreases |a|
  {
    if |a| > 0 {
      LexLeReflexive(a[1..]);
    }
  }

  lemma {:induction false} LexLeAntisymmetric(a: string, b: string)
    requires LexLe(a, b) && LexLe(b, a)
    ensures a == b
    decreases |a|
  {
    if |a| > 0 {
      LexLeAntisymmetric(a[1..], b[1..]);
      assert a == [a[0]] + a[1..];
      assert b == [b[0]] + b[1..];
    }
  }

  lemma {:induction false} LexLeTransitive(a: string, b: string, c: string)
    requires LexLe(a, b) && LexLe(b, c)
    ensures LexLe(a, c)
    decreases |a|
  {
    if |a| > 0 && a[0] == b[0] && b[0] == c[0] {
      LexLeTransitive(a[1..], b[1..], c[1..]);
    }
  }

  lemma {:induction false} LexLeTotal(a: string, b: string)
    ensures LexLe(a, b) || LexLe(b, a)
    decreases |a|
  {
    if |a| > 0 && |b| > 0 && a[0] == b[0] {
      LexLeTotal(a[1..], b[1..]);
    }
  }

  // ---------------------------------------------------------------------
  // `sorted(self.room_mappings.keys())`

  predicate IsLeast(s: set<string>, m: string) {
    m in s && forall k :: k in s ==> LexLe(m, k)
  }

  lemma {:induction false} LeastExists(s: set<string>)
    requires s != {}
    ensures exists m :: IsLeast(s, m)
    decreases |s|
  {
    var x :| x in s;
    LexLeReflexive(x);
    var rest := s - {x};
    if rest == {} {
      assert s == {x};
      assert IsLeast(s, x);
    } else {
      LeastExists(rest);
      var m :| IsLeast(rest, m);
      LexLeTotal(x, m);
      if LexLe(x, m) {
        forall k | k in s
          ensures LexLe(x, k)
        {
          if k != x {
            LexLeTransitive(x, m, k);
          }
        }
        assert IsLeast(s, x);
      } else {
        assert IsLeast(s, m);
      }
    }
  }

  lemma LeastUnique(s: set<string>)
    ensures forall m, n :: IsLeast(s, m) && IsLeast(s, n) ==> m == n
  {
    forall m, n | IsLeast(s, m) && IsLeast(s, n)
      ensures m == n
    {
      LexLeAntisymmetric(m, n);
    }
  }

  /** The elements of `s` in strictly increasing string order. */
  function SortedKeys(s: set<string>): (r: seq<string>)
    ensures |r| == |s|
    ensures forall k :: k in r <==> k in s
    ensures forall i, j :: 0 <= i < j < |r| ==> LexLt(r[i], r[j])
    decreases |s|
  {
    if s == {} then []
    else
      LeastExists(s);
      LeastUnique(s);
      var m :| IsLeast(s, m);
      [m] + SortedKeys(s - {m})
  }

  // ---------------------------------------------------------------------
  // Insertion-ordered dictionaries

  /** One `name: {chair: count, ...}` entry of the rendered dictionary. */
  datatype Entry = Entry(name: string, counts: seq<(char, nat)>)

  predicate UniqueNames(d: seq<Entry>) {
    forall i, j :: 0 <= i < j < |d| ==> d[i].name != d[j].name
  }

  /** `d[e.name] = e.counts`: an existing key keeps its position and takes
      the new value, a new key goes to the end (see `PutFresh`,
      `PutExisting`). */
  function Put(d: seq<Entry>, e: Entry): seq<Entry>
  {
    if d == [] then [e]
    else if d[0].name == e.name then [e] + d[1..]
    else [d[0]] + Put(d[1..], e)
  }

  lemma {:induction false} PutFresh(d: seq<Entry>, e: Entry)
    requires forall i :: 0 <= i < |d| ==> d[i].name != e.name
    ensures Put(d, e) == d + [e]
  {
    if d != [] {
      PutFresh(d[1..], e);
      assert [d[0]] + (d[1..] + [e]) == d + [e];
    }
  }

  lemma {:induction false} PutExisting(d: seq<Entry>, e: Entry, i: nat)
    requires i < |d| && d[i].name == e.name
    requires forall j :: 0 <= j < i ==> d[j].name != e.name
    ensures Put(d, e) == d[i := e]
  {
    if i > 0 {
      PutExisting(d[1..], e, i - 1);
      assert [d[0]] + d[1..][i - 1 := e] == d[i := e];
    }
  }

  /** `d.update(es)`: `Put` of every entry of `es` in order. */
  function Update(d: seq<Entry>, es: seq<Entry>): seq<Entry>
    decreases |es|
  {
    if es == [] then d else Update(Put(d, es[0]), es[1..])
  }

  lemma {:induction false} UpdateAppend(d: seq<Entry>, a: seq<Entry>, b: seq<Entry>)
    ensures Update(d, a + b) == Update(Update(d, a), b)
    decreases |a|
  {
    if a == [] {
      assert a + b == b;
    } else {
      var d' := Put(d, a[0]);
      assert (a + b)[0] == a[0];
      assert (a + b)[1..] == a[1..] + b;
      assert Update(d, a + b) == Update(d', a[1..] + b);
      assert Update(d, a) == Update(d', a[1..]);
      UpdateAppend(d', a[1..], b);
    }
  }

  /** Entries with fresh, distinct names are appended in order. */
  lemma {:induction false} UpdateFresh(d: seq<Entry>, es: seq<Entry>)
    requires UniqueNames(es)
    requires forall i, j :: 0 <= i < |d| && 0 <= j < |es| ==> d[i].name != es[j].name
    ensures Update(d, es) == d + es
    decreases |es|
  {
    if es != [] {
      var d' := d + [es[0]];
      PutFresh(d, es[0]);
      var tail := es[1..];
      forall i, j | 0 <= i < |d'| && 0 <= j < |tail|
        ensures d'[i].name != tail[j].name
      {
        assert tail[j] == es[j + 1];
      }
      assert UniqueNames(tail) by {
        forall i, j | 0 <= i < j < |tail|
          ensures tail[i].name != tail[j].name
        {
          assert tail[i] == es[i + 1] && tail[j] == es[j + 1];
        }
      }
      UpdateFresh(d', tail);
      assert d' + tail == d + es;
    }
  }

  /** `{"total": t}.update(es)` where no entry is named like the first:
      the entries follow it in order. */
  lemma UpdateSingletonMiss(e0: Entry, es: seq<Entry>)
    requires UniqueNames(es)
    requires forall j :: 0 <= j < |es| ==> es[j].name != e0.name
    ensures Update([e0], es) == [e0] + es
  {
    UpdateFresh([e0], es);
  }

  /** `{"total": t}.update(es)` where entry `j` is named like the first: it
      takes the first position, the others follow in their order. */
  lemma UpdateSingletonHit(e0: Entry, es: seq<Entry>, j: nat)
    requires UniqueNames(es)
    requires j < |es| && es[j].name == e0.name
    ensures Update([e0], es) == [es[j]] + es[..j] + es[j + 1..]
  {
    var head, tail := es[..j], es[j + 1..];
    var front := [es[j]] + head;
    calc {
      Update([e0], es);
      { SplitAt(es, j); }
      Update([e0], head + ([es[j]] + tail));
      { UpdateAppend([e0], head, [es[j]] + tail); }
      Update(Update([e0], head), [es[j]] + tail);
      { UpdateFreshHead(e0, es, j); }
      Update([e0] + head, [es[j]] + tail);
      { UpdateAppend([e0] + head, [es[j]], tail); }
      Update(Update([e0] + head, [es[j]]), tail);
      { UpdateOne([e0] + head, es[j], front); }
      Update(front, tail);
      { FrontFresh(es, j); UpdateFresh(front, tail); }
      front + tail;
    }
  }

  lemma SplitAt(es: seq<Entry>, j: nat)
    requires j < |es|
    ensures es == es[..j] + ([es[j]] + es[j + 1..])
  {
  }

  lemma UpdateFreshHead(e0: Entry, es: seq<Entry>, j: nat)
    requires UniqueNames(es)
    requires j < |es| && es[j].name == e0.name
    ensures Update([e0], es[..j]) == [e0] + es[..j]
  {
    var head := es[..j];
    assert UniqueNames(head);
    UpdateFresh([e0], head);
  }

  lemma UpdateOne(d: seq<Entry>, e: Entry, front: seq<Entry>)
    requires |d| > 0 && d[0].name == e.name && front == [e] + d[1..]
    ensures Update(d, [e]) == front
  {
    PutExisting(d, e, 0);
    assert d[0 := e] == front;
  }

  lemma FrontFresh(es: seq<Entry>, j: nat)
    requires UniqueNames(es) && j < |es|
    ensures UniqueNames(es[j + 1..])
    ensures var front, tail := [es[j]] + es[..j], es[j + 1..];
      forall a, b :: 0 <= a < |front| && 0 <= b < |tail| ==> front[a].name != tail[b].name
  {
    var front, tail := [es[j]] + es[..j], es[j + 1..];
    forall a, b | 0 <= a < |front| && 0 <= b < |tail|
      ensures front[a].name != tail[b].name
    {
      assert tail[b] == es[j + 1 + b];
      if a > 0 {
        assert front[a] == es[a - 1];
      }
    }
    assert UniqueNames(tail) by {
      forall a, b | 0 <= a < b < |tail|
        ensures tail[a].name != tail[b].name
      {
        assert tail[a] == es[j + 1 + a] && tail[b] == es[j + 1 + b];
      }
    }
  }

  // ---------------------------------------------------------------------
  // The formatted plan

  /** `{chair: t.get(chair, 0) for chair in chair_order}`. */
  function Project(t: Tally): (r: seq<(char, nat)>)
    ensures |r| == |ChairOrder|
    ensures forall i :: 0 <= i < |r| ==> r[i] == (ChairOrder[i], Get(t, ChairOrder[i]))
  {
    [('W', Get(t, 'W')), ('P', Get(t, 'P')), ('S', Get(t, 'S')), ('C', Get(t, 'C'))]
  }

  /** The running `total_chairs` after adding the rooms `keys` in order. */
  function SumTallies(reg: Rooms, keys: seq<string>, acc: Tally): Tally
    requires forall k :: k in keys ==> k in reg
    decreases |keys|
  {
    if keys == [] then acc else SumTallies(reg, keys[1..], AddCounts(acc, reg[keys[0]]))
  }

  lemma {:induction false} SumTalliesFrame(reg: Rooms, reg': Rooms, keys: seq<string>, acc: Tally)
    requires forall k :: k in keys ==> k in reg && k in reg' && reg[k] == reg'[k]
    ensures SumTallies(reg, keys, acc) == SumTallies(reg', keys, acc)
    decreases |keys|
  {
    if keys != [] {
      SumTalliesFrame(reg, reg', keys[1..], AddCounts(acc, reg[keys[0]]));
    }
  }

  /** Adding every room once, in any order, adds the registry total. */
  lemma {:induction false} SumTalliesTotal(reg: Rooms, keys: seq<string>, acc: Tally, ch: char)
    requires forall i, j :: 0 <= i < j < |keys| ==> keys[i] != keys[j]
    requires forall k :: k in keys <==> k in reg
    ensures Get(SumTallies(reg, keys, acc), ch) == Get(acc, ch) + Total(reg, ch)
    decreases |keys|
  {
    if keys == [] {
      assert reg == map[];
    } else {
      var k := keys[0];
      var rest := reg - {k};
      var acc' := AddCounts(acc, reg[k]);
      TotalRemove(reg, k, ch);
      forall x | x in keys[1..]
        ensures x in reg && x in rest && reg[x] == rest[x]
      {
        var i :| 0 <= i < |keys[1..]| && keys[1..][i] == x;
        assert keys[i + 1] == x;
      }
      forall x
        ensures x in keys[1..] <==> x in rest
      {
        if x in rest {
          assert x in keys && x != k;
          var i :| 0 <= i < |keys| && keys[i] == x;
          assert keys[1..][i - 1] == x;
        }
      }
      SumTalliesFrame(reg, rest, keys[1..], acc');
      SumTalliesTotal(rest, keys[1..], acc', ch);
    }
  }

  /** `sorted_room_mappings`: one projected entry per key. */
  function RoomEntries(reg: Rooms, keys: seq<string>): (r: seq<Entry>)
    requires forall k :: k in keys ==> k in reg
    ensures |r| == |keys|
    ensures forall i :: 0 <= i < |r| ==> r[i].name == keys[i] && r[i].counts == Project(reg[keys[i]])
  {
    seq(|keys|, i requires 0 <= i < |keys| => Entry(keys[i], Project(reg[keys[i]])))
  }

  /** The dictionary `format_parsed_floor_plan` builds: a "total" entry
      with the summed tallies, updated by the sorted room entries. */
  function Render(reg: Rooms, chairTypes: set<char>): seq<Entry>
    requires ChairKeysWithin(reg, chairTypes)
  {
    var keys := SortedKeys(reg.Keys);
    var totals := SumTallies(reg, keys, ZeroTally(chairTypes));
    Update([Entry("total", Project(totals))], RoomEntries(reg, keys))
  }

  /** The formatted plan has the promised layout. */
  lemma FormatLayout(reg: Rooms, chairTypes: set<char>)
    requires ChairKeysWithin(reg, chairTypes)
    ensures Layout(reg, Render(reg, chairTypes))
  {
    var keys := SortedKeys(reg.Keys);
    var rooms := RoomEntries(reg, keys);
    var e0 := Entry("total", Project(SumTallies(reg, keys, ZeroTally(chairTypes))));
    KeysSorted(reg);
    RoomsListing(reg, keys, rooms);
    FormatShape(reg, rooms, e0, Render(reg, chairTypes));
  }

  /** The count the first entry shows for `ch`: the "total" room's if
      the registry has one, otherwise the sum over all rooms. */
  ghost function FirstCount(reg: Rooms, ch: char): nat {
    if "total" in reg then Get(reg["total"], ch) else Total(reg, ch)
  }

  /** The first entry of the formatted plan holds the registry's "total"
      room if there is one, otherwise the sum of every room's counts, in
      `ChairOrder`. */
  lemma FormatTotals(reg: Rooms, chairTypes: set<char>)
    requires ChairKeysWithin(reg, chairTypes)
    ensures var r := Render(reg, chairTypes);
      && |r| > 0
      && r[0].counts == [('W', FirstCount(reg, 'W')), ('P', FirstCount(reg, 'P')), ('S', FirstCount(reg, 'S')), ('C', FirstCount(reg, 'C'))]
  {
    KeysSorted(reg);
    FormatFirst(reg, chairTypes);
    FormatHead(reg, chairTypes, SortedKeys(reg.Keys));
  }

  /** `format_parsed_floor_plan`.  Every room's tally must use only the
      configured chair types: the source raises a `KeyError` otherwise.
      The result lists "total" first and then every other room once, in
      name order, each projected onto `ChairOrder`; the first entry holds
      the registry's own "total" room when it has one, otherwise the sum
      over all rooms. */
  function Format(reg: Rooms, chairTypes: set<char>): (r: seq<Entry>)
    requires ChairKeysWithin(reg, chairTypes)
    ensures Layout(reg, r)
    ensures r[0].counts == [('W', FirstCount(reg, 'W')), ('P', FirstCount(reg, 'P')), ('S', FirstCount(reg, 'S')), ('C', FirstCount(reg, 'C'))]
  {
    FormatLayout(reg, chairTypes);
    FormatTotals(reg, chairTypes);
    Render(reg, chairTypes)
  }

  /** The first entry projects either the "total" room or the summed
      tallies. */
  lemma FormatFirst(reg: Rooms, chairTypes: set<char>)
    requires ChairKeysWithin(reg, chairTypes)
    ensures var r := Render(reg, chairTypes);
      var keys := SortedKeys(reg.Keys);
      && |r| > 0
      && r[0].counts == Project(if "total" in reg then reg["total"] else SumTallies(reg, keys, ZeroTally(chairTypes)))
  {
    var keys := SortedKeys(reg.Keys);
    var rooms := RoomEntries(reg, keys);
    var e0 := Entry("total", Project(SumTallies(reg, keys, ZeroTally(chairTypes))));
    KeysSorted(reg);
    RoomsListing(reg, keys, rooms);
    FormatShape(reg, rooms, e0, Render(reg, chairTypes));
  }

  /** The shape promised for the rendered dictionary: "total" first, then
      every other room once, projected, in strictly increasing order. */
  ghost predicate Layout(reg: Rooms, r: seq<Entry>) {
    && |r| == |reg| + (if "total" in reg then 0 else 1)
    && |r| > 0 && r[0].name == "total"
    && (forall i :: 1 <= i < |r| ==> r[i].name in reg && r[i].name != "total" && r[i].counts == Project(reg[r[i].name]))
    && (forall i, j :: 1 <= i < j < |r| ==> LexLt(r[i].name, r[j].name))
    && (forall room :: room in reg ==> exists i :: 0 <= i < |r| && r[i].name == room)
  }

  /** `rooms` lists every room of `reg` once, projected, in strictly
      increasing name order. */
  ghost predicate Listing(reg: Rooms, rooms: seq<Entry>) {
    && |rooms| == |reg|
    && (forall i :: 0 <= i < |rooms| ==> rooms[i].name in reg && rooms[i].counts == Project(reg[rooms[i].name]))
    && (forall i, j :: 0 <= i < j < |rooms| ==> LexLt(rooms[i].name, rooms[j].name))
    && (forall room :: room in reg ==> exists i :: 0 <= i < |rooms| && rooms[i].name == room)
  }

  /** Keys in strictly increasing order, exactly those of `reg`. */
  ghost predicate SortedOver(reg: Rooms, keys: seq<string>) {
    && |keys| == |reg|
    && (forall k :: k in keys <==> k in reg)
    && (forall i, j :: 0 <= i < j < |keys| ==> LexLt(keys[i], keys[j]))
  }

  lemma RoomsListing(reg: Rooms, keys: seq<string>, rooms: seq<Entry>)
    requires SortedOver(reg, keys)
    requires rooms == RoomEntries(reg, keys)
    ensures Listing(reg, rooms) && UniqueNames(rooms)
  {
    RoomsCover(reg, keys, rooms);
    forall i, j | 0 <= i < j < |rooms|
      ensures LexLt(rooms[i].name, rooms[j].name)
    {
      assert rooms[i].name == keys[i] && rooms[j].name == keys[j];
    }
  }

  lemma RoomsCover(reg: Rooms, keys: seq<string>, rooms: seq<Entry>)
    requires forall k :: k in keys <==> k in reg
    requires rooms == RoomEntries(reg, keys)
    ensures forall room :: room in reg ==> exists i :: 0 <= i < |rooms| && rooms[i].name == room
  {
    forall room | room in reg
      ensures exists i :: 0 <= i < |rooms| && rooms[i].name == room
    {
      var i :| 0 <= i < |keys| && keys[i] == room;
      assert rooms[i].name == room;
    }
  }

  /** Position `i` of `r` after moving entry `j` to the front. */
  lemma HitAt(rooms: seq<Entry>, j: nat, r: seq<Entry>, i: nat)
    requires j < |rooms| && r == [rooms[j]] + rooms[..j] + rooms[j + 1..]
    requires 1 <= i < |r|
    ensures r[i] == rooms[if i <= j then i - 1 else i]
  {
  }

  lemma HitRooms(reg: Rooms, rooms: seq<Entry>, j: nat, r: seq<Entry>)
    requires Listing(reg, rooms)
    requires j < |rooms| && rooms[j].name == "total"
    requires r == [rooms[j]] + rooms[..j] + rooms[j + 1..]
    ensures forall i :: 1 <= i < |r| ==> r[i].name in reg && r[i].name != "total" && r[i].counts == Project(reg[r[i].name])
  {
    forall i | 1 <= i < |r|
      ensures r[i].name in reg && r[i].name != "total" && r[i].counts == Project(reg[r[i].name])
    {
      HitAt(rooms, j, r, i);
      var s := if i <= j then i - 1 else i;
      assert LexLt(rooms[if s < j then s else j].name, rooms[if s < j then j else s].name);
    }
  }

  lemma HitSorted(reg: Rooms, rooms: seq<Entry>, j: nat, r: seq<Entry>)
    requires Listing(reg, rooms)
    requires j < |rooms| && r == [rooms[j]] + rooms[..j] + rooms[j + 1..]
    ensures forall i, k :: 1 <= i < k < |r| ==> LexLt(r[i].name, r[k].name)
  {
    forall i, k | 1 <= i < k < |r|
      ensures LexLt(r[i].name, r[k].name)
    {
      HitAt(rooms, j, r, i);
      HitAt(rooms, j, r, k);
    }
  }

  lemma HitCovers(reg: Rooms, rooms: seq<Entry>, j: nat, r: seq<Entry>)
    requires Listing(reg, rooms)
    requires j < |rooms| && r == [rooms[j]] + rooms[..j] + rooms[j + 1..]
    ensures forall room :: room in reg ==> exists i :: 0 <= i < |r| && r[i].name == room
  {
    forall room | room in reg
      ensures exists i :: 0 <= i < |r| && r[i].name == room
    {
      var s :| 0 <= s < |rooms| && rooms[s].name == room;
      if s == j {
        assert r[0].name == room;
      } else {
        var i := if s < j then s + 1 else s;
        HitAt(rooms, j, r, i);
        assert r[i].name == room;
      }
    }
  }

  /** A room called "total" replaces the computed totals in first place. */
  lemma FormatHit(reg: Rooms, rooms: seq<Entry>, j: nat, r: seq<Entry>)
    requires Listing(reg, rooms)
    requires j < |rooms| && rooms[j].name == "total"
    requires r == [rooms[j]] + rooms[..j] + rooms[j + 1..]
    ensures Layout(reg, r)
  {
    assert |r| == |rooms|;
    HitRooms(reg, rooms, j, r);
    HitSorted(reg, rooms, j, r);
    HitCovers(reg, rooms, j, r);
  }

  /** Without a room called "total" the computed totals come first. */
  lemma FormatMiss(reg: Rooms, rooms: seq<Entry>, e0: Entry, r: seq<Entry>)
    requires Listing(reg, rooms)
    requires e0.name == "total" && "total" !in reg
    requires r == [e0] + rooms
    ensures Layout(reg, r)
  {
    forall i | 1 <= i < |r|
      ensures r[i] == rooms[i - 1]
    {
    }
    forall i, j | 1 <= i < j < |r|
      ensures LexLt(r[i].name, r[j].name)
    {
      assert r[i] == rooms[i - 1] && r[j] == rooms[j - 1];
    }
    forall room | room in reg
      ensures exists i :: 0 <= i < |r| && r[i].name == room
    {
      var s :| 0 <= s < |rooms| && rooms[s].name == room;
      assert r[s + 1] == rooms[s];
    }
  }

  /** Summing the tallies of the sorted keys from zero adds up every
      room. */
  lemma FormatHead(reg: Rooms, chairTypes: set<char>, keys: seq<string>)
    requires SortedOver(reg, keys)
    ensures forall ch :: Get(SumTallies(reg, keys, ZeroTally(chairTypes)), ch) == Total(reg, ch)
  {
    forall ch
      ensures Get(SumTallies(reg, keys, ZeroTally(chairTypes)), ch) == Total(reg, ch)
    {
      SumTalliesTotal(reg, keys, ZeroTally(chairTypes), ch);
    }
  }

  /** The keys `Format` sorts are exactly the registry's, in order. */
  lemma KeysSorted(reg: Rooms)
    ensures SortedOver(reg, SortedKeys(reg.Keys))
  {
    assert |reg.Keys| == |reg|;
  }

  /** Putting the totals entry `e0` first and updating it with the sorted
      rooms gives the promised layout, whichever case applies. */
  lemma FormatShape(reg: Rooms, rooms: seq<Entry>, e0: Entry, r: seq<Entry>)
    requires Listing(reg, rooms) && UniqueNames(rooms)
    requires e0.name == "total"
    requires r == Update([e0], rooms)
    ensures Layout(reg, r)
    ensures r[0].counts == if "total" in reg then Project(reg["total"]) else e0.counts
  {
    if "total" in reg {
      var j :| 0 <= j < |rooms| && rooms[j].name == "total";
      UpdateSingletonHit(e0, rooms, j);
      FormatHit(reg, rooms, j, r);
    } else {
      assert forall j :: 0 <= j < |rooms| ==> rooms[j].name != "total";
      UpdateSingletonMiss(e0, rooms);
      FormatMiss(reg, rooms, e0, r);
    }
  }
}

=== FILE: grid.dfy ===
/** The character grid the parser walks, its configuration, and counting of
    characters over sets and sequences of cells.  Row index first, column
    index second, as in the analyser (x is the row, y the column). */
module Grid {

  /** A (row, column) coordinate; may lie outside the grid. */
  type Cell = (int, int)

  /** Default wall glyphs of the analyser. */
  const DefaultWalls: set<char> := {'|', '-', '+', '/'}

  /** Default chair (furniture) codes of the analyser. */
  const DefaultChairs: set<char> := {'P', 'W', 'S', 'C'}

  /** A loaded floor plan: the character rows, the dimensions the loader
      reported, and the wall and chair character sets. */
  datatype Plan = Plan(grid: seq<seq<char>>, rows: nat, cols: nat,
                       walls: set<char>, chairs: set<char>)

  /** The loader's guarantee: `rows` rows, each exactly `cols` wide. */
  predicate Rectangular(p: Plan) {
    && |p.grid| == p.rows
    && forall x :: 0 <= x < |p.grid| ==> |p.grid[x]| == p.cols
  }

  predicate InBounds(p: Plan, c: Cell) {
    0 <= c.0 < p.rows && 0 <= c.1 < p.cols
  }

  function At(p: Plan, c: Cell): char
    requires Rectangular(p) && InBounds(p, c)
  {
    p.grid[c.0][c.1]
  }

  /** An in-bounds cell that is not drawn with a wall glyph. */
  predicate Open(p: Plan, c: Cell)
    requires Rectangular(p)
  {
    InBounds(p, c) && At(p, c) !in p.walls
  }

  /** A cell the search may enter: open and not yet marked visited. */
  predicate Visitable(p: Plan, visited: set<Cell>, c: Cell)
    requires Rectangular(p)
  {
    Open(p, c) && c !in visited
  }

  /** The grid has no cell at all (no rows, or rows of width zero). */
  predicate Empty(p: Plan) {
    p.rows == 0 || p.cols == 0
  }

  /** The four axis-aligned neighbours, in the order the search tries them:
      up, down, left, right. */
  function Neighbours(c: Cell): seq<Cell> {
    [(c.0 - 1, c.1), (c.0 + 1, c.1), (c.0, c.1 - 1), (c.0, c.1 + 1)]
  }

  predicate Adjacent(a: Cell, b: Cell) {
    b in Neighbours(a)
  }

  /** Where `n` lies among the neighbours of `c`: 0 up, 1 down, 2 left,
      3 right, and 4 when it is not a neighbour. */
  function Direction(c: Cell, n: Cell): (d: nat)
    ensures d <= 4 && (d < 4 <==> Adjacent(c, n)) && (d < 4 ==> Neighbours(c)[d] == n)
  {
    IndexOf(Neighbours(c), n)
  }

  /** The four neighbours are four different cells. */
  lemma NeighboursDistinct(c: Cell)
    ensures Distinct(Neighbours(c))
  {
  }

  /** Adjacency is symmetric. */
  lemma AdjacentSymmetric(a: Cell, b: Cell)
    requires Adjacent(a, b)
    ensures Adjacent(b, a)
  {
    var i :| 0 <= i < 4 && Neighbours(a)[i] == b;
    if i == 0 { assert Neighbours(b)[1] == a; }
    else if i == 1 { assert Neighbours(b)[0] == a; }
    else if i == 2 { assert Neighbours(b)[3] == a; }
    else { assert Neighbours(b)[2] == a; }
  }

  /** Every open neighbour of `c` is marked in `visited`. */
  predicate Covered(p: Plan, c: Cell, visited: set<Cell>)
    requires Rectangular(p)
  {
    forall i :: 0 <= i < 4 ==> Open(p, Neighbours(c)[i]) ==> Neighbours(c)[i] in visited
  }

  /** An open cell left out of `visited` is no neighbour of a covered cell. */
  lemma NotAdjacentUncovered(p: Plan, c: Cell, visited: set<Cell>, n: Cell)
    requires Rectangular(p) && Covered(p, c, visited) && Open(p, n) && n !in visited
    ensures !Adjacent(c, n)
  {
    forall i | 0 <= i < 4
      ensures Neighbours(c)[i] != n
    {
    }
  }

  /** All cells of the grid. */
  ghost function Cells(p: Plan): set<Cell> {
    set x, y | 0 <= x < p.rows && 0 <= y < p.cols :: (x, y)
  }

  /** The cells of rows `0..r` and columns `0..c`. */
  ghost function Box(r: int, c: int): set<Cell> {
    set x, y | 0 <= x < r && 0 <= y < c :: (x, y)
  }

  /** The cells of row `x`, columns `0..c`. */
  ghost function RowSpan(x: int, c: int): set<Cell> {
    set y | 0 <= y < c :: (x, y)
  }

  lemma {:induction false} RowSpanSize(x: int, c: nat)
    ensures |RowSpan(x, c)| == c
  {
    if c == 0 {
      assert RowSpan(x, c) == {};
    } else {
      assert RowSpan(x, c) == RowSpan(x, c - 1) + {(x, c - 1)};
      RowSpanSize(x, c - 1);
    }
  }

  lemma BoxSplit(r: nat, c: nat)
    requires r > 0
    ensures Box(r, c) == Box(r - 1, c) + RowSpan(r - 1, c)
    ensures Box(r - 1, c) * RowSpan(r - 1, c) == {}
  {
    forall cell | cell in Box(r, c)
      ensures cell in Box(r - 1, c) + RowSpan(r - 1, c)
    {
      if cell.0 == r - 1 {
        assert cell == (r - 1, cell.1);
      }
    }
  }

  /** A grid has `rows * cols` cells. */
  lemma {:induction false} BoxSize(r: nat, c: nat)
    ensures |Box(r, c)| == r * c
  {
    if r == 0 {
      assert Box(r, c) == {};
    } else {
      BoxSplit(r, c);
      BoxSize(r - 1, c);
      RowSpanSize(r - 1, c);
      assert (r - 1) * c + c == r * c;
    }
  }

  lemma {:induction false} SubsetSize<T>(a: set<T>, b: set<T>)
    requires a <= b
    ensures |a| <= |b|
    decreases |a|
  {
    if a != {} {
      var x :| x in a;
      SubsetSize(a - {x}, b - {x});
    }
  }

  /** All open cells of the grid. */
  ghost function OpenCells(p: Plan): set<Cell>
    requires Rectangular(p)
  {
    set c | c in Cells(p) && Open(p, c)
  }

  /** The cells of `cells` that hold character `ch`. */
  ghost function Tiles(p: Plan, cells: set<Cell>, ch: char): set<Cell>
    requires Rectangular(p)
  {
    set c | c in cells && InBounds(p, c) && At(p, c) == ch
  }

  predicate Distinct<T(==)>(s: seq<T>) {
    forall i, j :: 0 <= i < j < |s| ==> s[i] != s[j]
  }

  /** The first position of `x` in `s`, or `|s|` when it does not occur. */
  function IndexOf<T(==)>(s: seq<T>, x: T): (k: nat)
    ensures k <= |s| && (k < |s| <==> x in s) && (k < |s| ==> s[k] == x)
  {
    if s == [] then 0
    else if x in s[..|s| - 1] then IndexOf(s[..|s| - 1], x)
    else if s[|s| - 1] == x then |s| - 1
    else assert s == s[..|s| - 1] + [s[|s| - 1]]; |s|
  }

  ghost function Elems<T>(s: seq<T>): set<T> {
    set x | x in s
  }

  lemma {:induction false} DistinctSize<T>(s: seq<T>)
    requires Distinct(s)
    ensures |Elems(s)| == |s|
  {
    if s != [] {
      var front := s[..|s| - 1];
      assert s == front + [s[|s| - 1]];
      assert Distinct(front);
      assert Elems(s) == Elems(front) + {s[|s| - 1]};
      assert s[|s| - 1] !in Elems(front);
      DistinctSize(front);
    }
  }

  /** A sequence of distinct in-bounds cells is no longer than the grid has
      cells. */
  lemma CellsBound(p: Plan, s: seq<Cell>)
    requires Distinct(s)
    requires forall i :: 0 <= i < |s| ==> InBounds(p, s[i])
    ensures |s| <= p.rows * p.cols
  {
    DistinctSize(s);
    assert Elems(s) <= Box(p.rows, p.cols);
    SubsetSize(Elems(s), Box(p.rows, p.cols));
    BoxSize(p.rows, p.cols);
  }

  /** Number of positions of `s` whose cell holds `ch`. */
  function Occurrences(p: Plan, s: seq<Cell>, ch: char): nat
    requires Rectangular(p)
    requires forall c :: c in s ==> InBounds(p, c)
  {
    if s == [] then 0
    else Occurrences(p, s[..|s| - 1], ch) + (if At(p, s[|s| - 1]) == ch then 1 else 0)
  }

  /** Adding one cell to a set adds it to the tiles of its own character only. */
  lemma TilesAdd(p: Plan, cells: set<Cell>, c: Cell, ch: char)
    requires Rectangular(p) && InBounds(p, c) && c !in cells
    ensures |Tiles(p, cells + {c}, ch)| == |Tiles(p, cells, ch)| + (if At(p, c) == ch then 1 else 0)
  {
    if At(p, c) == ch {
      assert Tiles(p, cells + {c}, ch) == Tiles(p, cells, ch) + {c};
    } else {
      assert Tiles(p, cells + {c}, ch) == Tiles(p, cells, ch);
    }
  }

  /** Tiles of a disjoint union are the disjoint union of the tiles. */
  lemma TilesDisjointUnion(p: Plan, a: set<Cell>, b: set<Cell>, ch: char)
    requires Rectangular(p) && a !! b
    ensures |Tiles(p, a + b, ch)| == |Tiles(p, a, ch)| + |Tiles(p, b, ch)|
  {
    assert Tiles(p, a + b, ch) == Tiles(p, a, ch) + Tiles(p, b, ch);
    assert Tiles(p, a, ch) !! Tiles(p, b, ch);
  }

  /** Counting along a duplicate-free sequence agrees with counting its set
      of cells: the tally kept in dequeue order is the region's count. */
  lemma {:induction false} OccurrencesAreTiles(p: Plan, s: seq<Cell>, ch: char)
    requires Rectangular(p)
    requires forall c :: c in s ==> InBounds(p, c)
    requires Distinct(s)
    ensures Occurrences(p, s, ch) == |Tiles(p, Elems(s), ch)|
  {
    if s == [] {
      assert Tiles(p, Elems(s), ch) == {};
    } else {
      var front, last := s[..|s| - 1], s[|s| - 1];
      assert Distinct(front);
      OccurrencesAreTiles(p, front, ch);
      assert Elems(s) == Elems(front) + {last};
      assert last !in Elems(front);
      TilesAdd(p, Elems(front), last, ch);
    }
  }
}

=== FILE: labels.dfy ===
/** Room-name extraction from one grid row.  The analyser runs the pattern
    `\(([^)]+)\)` with `finditer` over the row and returns the group of the
    match whose span covers the column.  Here the same matches are found by
    an explicit left-to-right scan. */
module Labels {
  import opened Wrappers

  /** Declarative shape of a label: `row[i]` is `(`, `row[k]` is the first
      `)` after it, and at least one character lies in between. */
  predicate IsLabel(row: string, i: int, k: int) {
    && 0 <= i
    && i + 1 < k < |row|
    && row[i] == '('
    && row[k] == ')'
    && forall j :: i < j < k ==> row[j] != ')'
  }

  /** Index of the first `)` at or after `from`. */
  function FirstClose(row: string, from: nat): (r: Option<nat>)
    ensures r.Some? ==> from <= r.value < |row| && row[r.value] == ')'
    ensures r.Some? ==> forall j :: from <= j < r.value ==> row[j] != ')'
    ensures r.None? ==> forall j :: from <= j < |row| ==> row[j] != ')'
    decreases |row| - from
  {
    if from >= |row| then None
    else if row[from] == ')' then Some(from)
    else FirstClose(row, from + 1)
  }

  /** The closing index of the match that starts at `i`, if one starts there.
      A greedy `[^)]+` runs up to the first `)`, so a match exists exactly
      when that `)` exists and is not the character right after `(`. */
  function MatchAt(row: string, i: nat): (r: Option<nat>)
    ensures r.Some? ==> IsLabel(row, i, r.value)
    ensures forall k :: IsLabel(row, i, k) ==> r == Some(k)
  {
    if i < |row| && row[i] == '(' then
      match FirstClose(row, i + 1)
      case Some(k) => if k > i + 1 then Some(k) else None
      case None => None
    else None
  }

  /** The `finditer` loop from position `pos`: after a match the search
      resumes behind its `)`, otherwise one position further on. */
  function FindFrom(row: string, pos: nat, y: int): Option<string>
    decreases |row| - pos
  {
    if pos >= |row| then None
    else
      match MatchAt(row, pos)
      case Some(k) => if pos <= y <= k then Some(row[pos + 1..k]) else FindFrom(row, k + 1, y)
      case None => FindFrom(row, pos + 1, y)
  }

  /** A name found from `pos` is the inside of a label at or after `pos`
      whose span covers `y`; it is non-empty and holds no `)`. */
  lemma {:induction false} FindFromSound(row: string, pos: nat, y: int)
    ensures var r := FindFrom(row, pos, y);
      r.Some? ==> exists i, k :: pos <= i <= y <= k && IsLabel(row, i, k) && r.value == row[i + 1..k]
    ensures var r := FindFrom(row, pos, y);
      r.Some? ==> |r.value| > 0 && ')' !in r.value
    decreases |row| - pos
  {
    if pos < |row| {
      match MatchAt(row, pos)
      case Some(k) =>
        if pos <= y <= k {
          var name := row[pos + 1..k];
          assert forall j :: 0 <= j < |name| ==> name[j] == row[pos + 1 + j];
        } else {
          FindFromSound(row, k + 1, y);
        }
      case None =>
        FindFromSound(row, pos + 1, y);
    }
  }

  /** `(i, k)` is a label whose span covers column `y`. */
  predicate Covers(row: string, y: int, i: int, k: int) {
    IsLabel(row, i, k) && i <= y <= k
  }

  /** `(i, k)` covers `y` and no covering label starts further left: the
      one `finditer` reports, since labels that overlap share their `)`. */
  ghost predicate LeftmostCover(row: string, y: int, i: int, k: int) {
    Covers(row, y, i, k) && forall i', k' :: Covers(row, y, i', k') ==> i <= i'
  }

  /** `get_room_name`: the text between the parentheses of the leftmost
      label whose span covers column `y`, or None when no label covers it.
      A name is never empty and never contains `)`. */
  function RoomName(row: string, y: int): (r: Option<string>)
    ensures r.Some? <==> exists i, k :: Covers(row, y, i, k)
    ensures r.Some? ==> exists i, k :: LeftmostCover(row, y, i, k) && r.value == row[i + 1..k]
    ensures r.Some? ==> |r.value| > 0 && ')' !in r.value
  {
    FindFromSound(row, 0, y);
    RoomNameLeftmost(row, y);
    FindFrom(row, 0, y)
  }

  /** The search from the start returns the leftmost covering label, and
      finds nothing when no label covers `y`. */
  lemma RoomNameLeftmost(row: string, y: int)
    ensures (exists i, k :: Covers(row, y, i, k)) ==>
      exists i, k :: LeftmostCover(row, y, i, k) && FindFrom(row, 0, y) == Some(row[i + 1..k])
    ensures FindFrom(row, 0, y).Some? ==> exists i, k :: Covers(row, y, i, k)
  {
    FindFromSound(row, 0, y);
    if FindFrom(row, 0, y).Some? {
      var i, k :| 0 <= i <= y <= k && IsLabel(row, i, k) && FindFrom(row, 0, y).value == row[i + 1..k];
      assert Covers(row, y, i, k);
    }
    if exists i, k :: Covers(row, y, i, k) {
      var i0, k0 :| Covers(row, y, i0, k0);
      var i, k := Leftmost(row, y, i0, k0);
      FindFromLeftmost(row, 0, y, i, k);
    }
  }

  /** Some covering label is leftmost. */
  lemma Leftmost(row: string, y: int, i0: int, k0: int) returns (i: int, k: int)
    requires Covers(row, y, i0, k0)
    ensures LeftmostCover(row, y, i, k)
    decreases i0
  {
    if exists i', k' :: Covers(row, y, i', k') && i' < i0 {
      var i', k' :| Covers(row, y, i', k') && i' < i0;
      i, k := Leftmost(row, y, i', k');
    } else {
      i, k := i0, k0;
    }
  }

  /** From any position at or before the leftmost covering label, the
      search lands on that label: every match it meets earlier closes
      before the label opens. */
  lemma {:induction false} FindFromLeftmost(row: string, pos: nat, y: int, i: int, k: int)
    requires LeftmostCover(row, y, i, k) && pos <= i
    ensures FindFrom(row, pos, y) == Some(row[i + 1..k])
    decreases |row| - pos
  {
    match MatchAt(row, pos)
    case Some(k') =>
      if pos < i {
        assert !Covers(row, y, pos, k');
        assert row[k'] == ')' && row[i] == '(';
        FindFromLeftmost(row, k' + 1, y, i, k);
      }
    case None =>
      FindFromLeftmost(row, pos + 1, y, i, k);
  }

  /** The label containing the column is returned whole, parentheses
      dropped; the wall after it is outside every span. */
  lemma ExampleDen()
    ensures RoomName("|(den)|", 1) == Some("den")
    ensures RoomName("|(den)|", 5) == Some("den")
    ensures RoomName("|(den)|", 6) == None
  {
    var row := "|(den)|";
    assert FirstClose(row, 5) == Some(5);
    assert FirstClose(row, 4) == Some(5);
    assert FirstClose(row, 3) == Some(5);
    assert FirstClose(row, 2) == Some(5);
    assert MatchAt(row, 0) == None;
    assert MatchAt(row, 1) == Some(5);
    assert row[2..5] == "den";
    assert FindFrom(row, 6, 6) == None;
  }

  /** An inner `(` belongs to the first match, so the name starts with `(`;
      `()` is not a label, and the search resumes right after its `(`. */
  lemma ExampleNested()
    ensures RoomName("((a)", 1) == Some("(a")
    ensures RoomName("()(b)", 0) == None
    ensures RoomName("()(b)", 2) == Some("b")
  {
    var row := "((a)";
    assert FirstClose(row, 3) == Some(3);
    assert FirstClose(row, 2) == Some(3);
    assert FirstClose(row, 1) == Some(3);
    assert MatchAt(row, 0) == Some(3);
    assert row[1..3] == "(a";
    var row2 := "()(b)";
    assert FirstClose(row2, 1) == Some(1);
    assert MatchAt(row2, 0) == None;
    assert MatchAt(row2, 1) == None;
    assert FirstClose(row2, 4) == Some(4);
    assert FirstClose(row2, 3) == Some(4);
    assert MatchAt(row2, 2) == Some(4);
    assert row2[3..4] == "b";
    assert FindFrom(row2, 5, 0) == None;
  }
}

=== FILE: parser.dfy ===
/** Region exploration and the row-major scan that fills the room registry
    (`FloorPlanParser`).  The visited matrix is the set of marked cells. */
module Parser {
  import opened Wrappers
  import opened Grid
  import opened Labels
  import opened Registry

  /** A cell whose character can supply the region's name: a `(` that is
      not itself a chair code (chair codes are checked first). */
  predicate LabelCell(p: Plan, c: Cell)
    requires Rectangular(p) && InBounds(p, c)
  {
    At(p, c) == '(' && '(' !in p.chairs
  }

  /** The room name the cell's row gives for the cell's column. */
  function Lookup(p: Plan, c: Cell): Option<string>
    requires Rectangular(p) && InBounds(p, c)
  {
    RoomName(p.grid[c.0], c.1)
  }

  /** Name capture on dequeuing `c`: chairs are counted instead, and a name
      already held is kept. */
  function Capture(p: Plan, name: Option<string>, c: Cell): Option<string>
    requires Rectangular(p) && InBounds(p, c)
  {
    if At(p, c) in p.chairs then name
    else if !Named(name) && At(p, c) == '(' then Lookup(p, c)
    else name
  }

  /** The name a search captures from the cells it dequeued, folding
      `Capture` over them in order. */
  function FirstName(p: Plan, order: seq<Cell>): Option<string>
    requires Rectangular(p)
    requires forall c :: c in order ==> InBounds(p, c)
  {
    if order == [] then None
    else Capture(p, FirstName(p, order[..|order| - 1]), order[|order| - 1])
  }

  /** The captured name is the lookup of the first label cell, in dequeue
      order, that yields a name; a label cell whose lookup yields nothing
      does not block a later one; with no such cell there is no name. */
  lemma {:induction false} FirstNameIsFirstLabel(p: Plan, order: seq<Cell>)
    requires Rectangular(p)
    requires forall c :: c in order ==> InBounds(p, c)
    ensures FirstName(p, order).Some? ==> Named(FirstName(p, order))
    ensures FirstName(p, order).Some? ==>
              exists i :: 0 <= i < |order| && LabelCell(p, order[i]) && Lookup(p, order[i]) == FirstName(p, order)
                          && forall j :: 0 <= j < i && LabelCell(p, order[j]) ==> Lookup(p, order[j]) == None
    ensures FirstName(p, order).None? ==>
              forall i :: 0 <= i < |order| && LabelCell(p, order[i]) ==> Lookup(p, order[i]) == None
  {
    if order != [] {
      var front, last := order[..|order| - 1], order[|order| - 1];
      assert forall j :: 0 <= j < |front| ==> order[j] == front[j];
      FirstNameIsFirstLabel(p, front);
    }
  }

  /** The position of the label cell that supplied a captured name. */
  lemma FirstLabel(p: Plan, order: seq<Cell>) returns (first: nat)
    requires Rectangular(p)
    requires forall c :: c in order ==> InBounds(p, c)
    requires FirstName(p, order).Some?
    ensures first < |order| && LabelCell(p, order[first]) && Lookup(p, order[first]) == FirstName(p, order)
    ensures forall k :: 0 <= k < first && LabelCell(p, order[k]) ==> Lookup(p, order[k]) == None
  {
    FirstNameIsFirstLabel(p, order);
    first :| 0 <= first < |order| && LabelCell(p, order[first]) && Lookup(p, order[first]) == FirstName(p, order)
      && forall k :: 0 <= k < first && LabelCell(p, order[k]) ==> Lookup(p, order[k]) == None;
  }

  lemma CoveredGrows(p: Plan, c: Cell, visited: set<Cell>, more: set<Cell>)
    requires Rectangular(p) && Covered(p, c, visited) && visited <= more
    ensures Covered(p, c, more)
  {
  }

  /** Marking an unmarked in-bounds cell leaves one cell fewer unmarked. */
  lemma MarkShrinksUnmarked(p: Plan, visited: set<Cell>, c: Cell)
    requires InBounds(p, c) && c !in visited
    ensures |Cells(p) - (visited + {c})| == |Cells(p) - visited| - 1
  {
    assert c == (c.0, c.1);
    assert c in Cells(p) - visited;
    assert Cells(p) - (visited + {c}) == (Cells(p) - visited) - {c};
  }

  /** Marking distinct unmarked in-bounds cells leaves that many fewer
      unmarked: the measure that bounds the search. */
  lemma {:induction false} MarkingShrinks(p: Plan, visited: set<Cell>, added: seq<Cell>)
    requires Distinct(added)
    requires forall n :: n in added ==> InBounds(p, n) && n !in visited
    ensures |Cells(p) - (visited + Elems(added))| == |Cells(p) - visited| - |added|
    decreases |added|
  {
    if added != [] {
      var front, last := added[..|added| - 1], added[|added| - 1];
      assert Distinct(front);
      MarkingShrinks(p, visited, front);
      assert Elems(added) == Elems(front) + {last};
      assert visited + Elems(added) == (visited + Elems(front)) + {last};
      MarkShrinksUnmarked(p, visited + Elems(front), last);
    }
  }

  /** The cells of `s` the search may enter, in the order of `s`. */
  function Visitables(p: Plan, visited: set<Cell>, s: seq<Cell>): (r: seq<Cell>)
    requires Rectangular(p)
    ensures forall n :: n in r ==> n in s && Visitable(p, visited, n)
  {
    if s == [] then []
    else Visitables(p, visited, s[..|s| - 1]) + (if Visitable(p, visited, s[|s| - 1]) then [s[|s| - 1]] else [])
  }

  /** The visitable cells of a duplicate-free list keep the list's order. */
  lemma {:induction false} VisitablesInListOrder(p: Plan, visited: set<Cell>, s: seq<Cell>) returns (r: seq<Cell>)
    requires Rectangular(p) && Distinct(s)
    ensures r == Visitables(p, visited, s)
    ensures forall a, b :: 0 <= a < b < |r| ==> IndexOf(s, r[a]) < IndexOf(s, r[b])
  {
    r := Visitables(p, visited, s);
    if s != [] {
      var front, last := s[..|s| - 1], s[|s| - 1];
      assert Distinct(front);
      var r0 := VisitablesInListOrder(p, visited, front);
      forall a, b | 0 <= a < b < |r|
        ensures IndexOf(s, r[a]) < IndexOf(s, r[b])
      {
        assert r[a] == r0[a] && r[a] in front;
        assert IndexOf(s, r[a]) == IndexOf(front, r[a]) < |front|;
        if b < |r0| {
          assert r[b] == r0[b] && r[b] in front;
          assert IndexOf(s, r[b]) == IndexOf(front, r[b]);
        } else {
          assert r[b] == last && last !in front;
          assert IndexOf(s, r[b]) == |front|;
        }
      }
    }
  }

  /** One more cell of a duplicate-free list: it is not among the cells
      already kept, and it is kept exactly when it is visitable. */
  lemma VisitablesStep(p: Plan, visited: set<Cell>, ns: seq<Cell>, i: nat)
    requires Rectangular(p) && Distinct(ns) && i < |ns|
    ensures ns[i] !in Elems(Visitables(p, visited, ns[..i]))
    ensures Visitables(p, visited, ns[..i + 1])
         == Visitables(p, visited, ns[..i]) + (if Visitable(p, visited, ns[i]) then [ns[i]] else [])
  {
    assert ns[..i + 1][..i] == ns[..i] && ns[..i + 1][i] == ns[i];
    assert ns[i] !in ns[..i];
  }

  /** The neighbour loop of one dequeue step: every visitable neighbour of
      `c` is marked and returned, in the order up, down, left, right. */
  method EnqueueNeighbours(p: Plan, visited: set<Cell>, c: Cell) returns (visited': set<Cell>, added: seq<Cell>)
    requires Rectangular(p)
    ensures added == Visitables(p, visited, Neighbours(c))
    ensures visited' == visited + Elems(added)
    ensures Distinct(added)
    ensures forall n :: n in added ==> Visitable(p, visited, n) && Adjacent(c, n)
    ensures Covered(p, c, visited')
    ensures forall a, b :: 0 <= a < b < |added| ==> Direction(c, added[a]) < Direction(c, added[b])
  {
    NeighboursDistinct(c);
    visited', added := EnqueueEach(p, visited, Neighbours(c));
    var _ := VisitablesInListOrder(p, visited, Neighbours(c));
  }

  /** The loop body of the neighbour loop over any list of distinct cells:
      each cell still visitable is marked and returned, in list order. */
  method EnqueueEach(p: Plan, visited: set<Cell>, ns: seq<Cell>) returns (visited': set<Cell>, added: seq<Cell>)
    requires Rectangular(p) && Distinct(ns)
    ensures added == Visitables(p, visited, ns)
    ensures visited' == visited + Elems(added)
    ensures Distinct(added)
    ensures forall k :: 0 <= k < |ns| ==> Open(p, ns[k]) ==> ns[k] in visited'
  {
    visited', added := visited, [];
    var i := 0;
    while i < |ns|
      invariant 0 <= i <= |ns|
      invariant visited' == visited + Elems(added)
      invariant Distinct(added)
      invariant added == Visitables(p, visited, ns[..i])
      invariant forall k :: 0 <= k < i ==> Open(p, ns[k]) ==> ns[k] in visited'
    {
      var n := ns[i];
      VisitablesStep(p, visited, ns, i);
      if 0 <= n.0 < p.rows && 0 <= n.1 < p.cols && n !in visited' && p.grid[n.0][n.1] !in p.walls {
        assert Elems(added + [n]) == Elems(added) + {n};
        visited' := visited' + {n};
        added := added + [n];
      }
      i := i + 1;
    }
    assert ns[..|ns|] == ns;
  }

  /** What holds of a search between dequeue steps: `seen` lists the cells
      it marked, in enqueue order (the queue is `seen[head..]`), each one
      open and adjacent to an earlier one, and the `head` cells already
      dequeued have all their open neighbours marked. */
  ghost predicate Frontier(p: Plan, visited: set<Cell>, marked: set<Cell>, seen: seq<Cell>, parent: seq<nat>, head: nat)
    requires Rectangular(p)
  {
    && Marks(visited, marked, seen)
    && head <= |seen|
    && (forall c :: c in seen ==> Open(p, c))
    && CoveredBefore(p, seen, head, marked)
    && DiscoveredFrom(seen, parent)
    && Layered(parent, head)
    && FoundFirst(seen, parent)
    && SiblingsInOrder(seen, parent)
  }

  /** Each cell was found from the earliest dequeued cell next to it: no
      cell dequeued before its parent is one of its neighbours. */
  ghost predicate FoundFirst(seen: seq<Cell>, parent: seq<nat>)
    requires DiscoveredFrom(seen, parent)
  {
    forall i, k :: 0 < i < |seen| && 0 <= k < parent[i] ==> !Adjacent(seen[k], seen[i])
  }

  /** Cells found from the same cell were appended in the order the
      neighbour loop tries them: up, down, left, right. */
  ghost predicate SiblingsInOrder(seen: seq<Cell>, parent: seq<nat>)
    requires DiscoveredFrom(seen, parent)
  {
    forall i, j :: 0 < i < j < |seen| && parent[i] == parent[j] ==> FoundIn(seen, parent, i) < FoundIn(seen, parent, j)
  }

  /** The direction in which `seen[i]` lies from the cell it was found from. */
  ghost function FoundIn(seen: seq<Cell>, parent: seq<nat>, i: nat): nat
    requires DiscoveredFrom(seen, parent) && 0 < i < |seen|
  {
    Direction(seen[parent[i]], seen[i])
  }

  /** Breadth-first discipline: cells are appended in the order of the cells
      they were found from, and every such cell was dequeued before `head`. */
  ghost predicate Layered(parent: seq<nat>, head: nat) {
    && (forall i, j :: 0 < i < j < |parent| ==> parent[i] <= parent[j])
    && (forall i :: 0 < i < |parent| ==> parent[i] < head)
  }

  /** `seen` lists the cells marked on top of `visited`, each once. */
  ghost predicate Marks(visited: set<Cell>, marked: set<Cell>, seen: seq<Cell>) {
    visited <= marked && Elems(seen) == marked - visited && Distinct(seen)
  }

  /** The first `head` cells of `seen` have all their open neighbours marked. */
  ghost predicate CoveredBefore(p: Plan, seen: seq<Cell>, head: nat, marked: set<Cell>)
    requires Rectangular(p)
  {
    forall k :: 0 <= k < head && k < |seen| ==> Covered(p, seen[k], marked)
  }

  /** `parent[i]` names the earlier cell from which `seen[i]` was enqueued. */
  ghost predicate DiscoveredFrom(seen: seq<Cell>, parent: seq<nat>) {
    && |parent| == |seen|
    && forall i :: 0 < i < |seen| ==> parent[i] < i && Adjacent(seen[parent[i]], seen[i])
  }

  /** `n` copies of `k`: the parent index of the cells one step enqueues. */
  function Fill(k: nat, n: nat): (r: seq<nat>)
    ensures |r| == n && forall i :: 0 <= i < n ==> r[i] == k
  {
    if n == 0 then [] else Fill(k, n - 1) + [k]
  }

  /** One dequeue step keeps the frontier: the dequeued cell `seen[head]`
      had its visitable neighbours marked and appended. */
  lemma FrontierStep(p: Plan, visited: set<Cell>, marked: set<Cell>, seen: seq<Cell>, parent: seq<nat>, head: nat,
                     marked': set<Cell>, added: seq<Cell>)
    requires Rectangular(p)
    requires Frontier(p, visited, marked, seen, parent, head) && head < |seen|
    requires marked' == marked + Elems(added) && Distinct(added)
    requires forall n :: n in added ==> Visitable(p, marked, n) && Adjacent(seen[head], n)
    requires forall a, b :: 0 <= a < b < |added| ==> Direction(seen[head], added[a]) < Direction(seen[head], added[b])
    requires Covered(p, seen[head], marked')
    ensures Frontier(p, visited, marked', seen + added, parent + Fill(head, |added|), head + 1)
  {
    StepMarks(visited, marked, seen, marked', added);
    StepCovers(p, marked, seen, head, marked', added);
    StepParents(seen, parent, head, added);
    StepLayered(parent, head, |added|);
    StepFoundFirst(p, marked, seen, parent, head, added);
    StepSiblings(seen, parent, head, added);
  }

  /** The cells found from `head` were unmarked, so no cell dequeued
      before `head` is next to them. */
  lemma StepFoundFirst(p: Plan, marked: set<Cell>, seen: seq<Cell>, parent: seq<nat>, head: nat, added: seq<Cell>)
    requires Rectangular(p)
    requires DiscoveredFrom(seen, parent) && FoundFirst(seen, parent) && head < |seen|
    requires CoveredBefore(p, seen, head, marked)
    requires forall n :: n in added ==> Visitable(p, marked, n) && Adjacent(seen[head], n)
    ensures DiscoveredFrom(seen + added, parent + Fill(head, |added|))
    ensures FoundFirst(seen + added, parent + Fill(head, |added|))
  {
    StepParents(seen, parent, head, added);
    var seen', parent' := seen + added, parent + Fill(head, |added|);
    forall i, k | 0 < i < |seen'| && 0 <= k < parent'[i]
      ensures !Adjacent(seen'[k], seen'[i])
    {
      if i >= |seen| {
        var n := added[i - |seen|];
        assert seen'[i] == n && n in added && seen'[k] == seen[k];
        NotAdjacentUncovered(p, seen[k], marked, n);
      } else {
        assert seen'[i] == seen[i] && seen'[k] == seen[k];
      }
    }
  }

  /** The cells found from `head` come after every earlier sibling group,
      in neighbour order among themselves. */
  lemma StepSiblings(seen: seq<Cell>, parent: seq<nat>, head: nat, added: seq<Cell>)
    requires DiscoveredFrom(seen, parent) && SiblingsInOrder(seen, parent) && Layered(parent, head) && head < |seen|
    requires forall n :: n in added ==> Adjacent(seen[head], n)
    requires forall a, b :: 0 <= a < b < |added| ==> Direction(seen[head], added[a]) < Direction(seen[head], added[b])
    ensures DiscoveredFrom(seen + added, parent + Fill(head, |added|))
    ensures SiblingsInOrder(seen + added, parent + Fill(head, |added|))
  {
    StepParents(seen, parent, head, added);
    var seen', parent' := seen + added, parent + Fill(head, |added|);
    forall k | 0 < k < |seen|
      ensures parent'[k] == parent[k] < head && FoundIn(seen', parent', k) == FoundIn(seen, parent, k)
    {
      assert seen'[k] == seen[k] && seen'[parent[k]] == seen[parent[k]];
    }
    forall k | |seen| <= k < |seen'|
      ensures parent'[k] == head && FoundIn(seen', parent', k) == Direction(seen[head], added[k - |seen|])
    {
      assert seen'[k] == added[k - |seen|] && seen'[head] == seen[head];
    }
    forall i, j | 0 < i < j < |seen'| && parent'[i] == parent'[j]
      ensures FoundIn(seen', parent', i) < FoundIn(seen', parent', j)
    {
      if j >= |seen| {
        assert i >= |seen|;
      }
    }
  }

  /** Appending the cells found from `head` keeps the breadth-first order. */
  lemma StepLayered(parent: seq<nat>, head: nat, n: nat)
    requires Layered(parent, head)
    ensures Layered(parent + Fill(head, n), head + 1)
  {
    var parent' := parent + Fill(head, n);
    forall i, j | 0 < i < j < |parent'|
      ensures parent'[i] <= parent'[j]
    {
      if j >= |parent| {
        assert parent'[j] == head;
        if i < |parent| {
          assert parent'[i] == parent[i];
        }
      }
    }
  }

  lemma StepMarks(visited: set<Cell>, marked: set<Cell>, seen: seq<Cell>, marked': set<Cell>, added: seq<Cell>)
    requires Marks(visited, marked, seen)
    requires marked' == marked + Elems(added) && Distinct(added)
    requires forall n :: n in added ==> n !in marked
    ensures Marks(visited, marked', seen + added)
  {
    assert Elems(seen + added) == Elems(seen) + Elems(added);
    AppendDistinct(seen, added);
  }

  /** Appending fresh distinct cells keeps the list duplicate-free. */
  lemma AppendDistinct(seen: seq<Cell>, added: seq<Cell>)
    requires Distinct(seen) && Distinct(added)
    requires forall n :: n in added ==> n !in Elems(seen)
    ensures Distinct(seen + added)
  {
    var seen' := seen + added;
    forall i, j | 0 <= i < j < |seen'|
      ensures seen'[i] != seen'[j]
    {
      if j >= |seen| && i < |seen| {
        assert seen'[j] in added;
        assert seen'[i] in Elems(seen);
      }
    }
  }

  lemma StepCovers(p: Plan, marked: set<Cell>, seen: seq<Cell>, head: nat, marked': set<Cell>, added: seq<Cell>)
    requires Rectangular(p)
    requires head < |seen| && marked <= marked'
    requires CoveredBefore(p, seen, head, marked)
    requires Covered(p, seen[head], marked')
    ensures CoveredBefore(p, seen + added, head + 1, marked')
  {
    forall k | 0 <= k < head + 1
      ensures Covered(p, (seen + added)[k], marked')
    {
      assert (seen + added)[k] == seen[k];
      if k < head {
        CoveredGrows(p, seen[k], marked, marked');
      }
    }
  }

  lemma StepParents(seen: seq<Cell>, parent: seq<nat>, head: nat, added: seq<Cell>)
    requires DiscoveredFrom(seen, parent) && head < |seen|
    requires forall n :: n in added ==> Adjacent(seen[head], n)
    ensures DiscoveredFrom(seen + added, parent + Fill(head, |added|))
  {
    var seen', parent' := seen + added, parent + Fill(head, |added|);
    forall i | 0 < i < |seen'|
      ensures parent'[i] < i && Adjacent(seen'[parent'[i]], seen'[i])
    {
      if i >= |seen| {
        assert seen'[i] == added[i - |seen|];
      }
    }
  }

  /** Counting one dequeued cell: its chair code, if it is one, goes up. */
  function Bump(p: Plan, t: Tally, c: Cell): Tally
    requires Rectangular(p) && InBounds(p, c)
  {
    var ch := At(p, c);
    if ch in p.chairs then t[ch := Get(t, ch) + 1] else t
  }

  /** The tally after dequeuing the cells of `s` in order. */
  function TallyOf(p: Plan, s: seq<Cell>): (t: Tally)
    requires Rectangular(p)
    requires forall c :: c in s ==> InBounds(p, c)
    ensures t.Keys == p.chairs
  {
    if s == [] then ZeroTally(p.chairs)
    else Bump(p, TallyOf(p, s[..|s| - 1]), s[|s| - 1])
  }

  /** The tally holds, for every chair code, the number of dequeued cells
      that show it. */
  lemma {:induction false} TallyOfCounts(p: Plan, s: seq<Cell>, ch: char)
    requires Rectangular(p)
    requires forall c :: c in s ==> InBounds(p, c)
    requires ch in p.chairs
    ensures TallyOf(p, s)[ch] == Occurrences(p, s, ch)
  {
    if s != [] {
      TallyOfCounts(p, s[..|s| - 1], ch);
    }
  }

  /** Dequeuing `s[k]` after `s[..k]`: one more step of each fold. */
  lemma FoldStep(p: Plan, s: seq<Cell>, k: nat)
    requires Rectangular(p)
    requires forall c :: c in s ==> InBounds(p, c)
    requires k < |s|
    ensures FirstName(p, s[..k + 1]) == Capture(p, FirstName(p, s[..k]), s[k])
    ensures TallyOf(p, s[..k + 1]) == Bump(p, TallyOf(p, s[..k]), s[k])
  {
    assert s[..k + 1][..k] == s[..k];
  }

  lemma TakeAppend<T>(s: seq<T>, t: seq<T>, k: nat)
    requires k <= |s|
    ensures (s + t)[..k] == s[..k]
  {
  }

  /** The state between two dequeue steps: the frontier facts, plus the
      tally and name folded over the `head` cells dequeued so far. */
  ghost predicate Searching(p: Plan, visited: set<Cell>, marked: set<Cell>, order: seq<Cell>, parent: seq<nat>,
                            head: nat, chairs: Tally, name: Option<string>)
    requires Rectangular(p)
  {
    && Frontier(p, visited, marked, order, parent, head)
    && |order| > 0
    && (forall c :: c in order ==> InBounds(p, c))
    && chairs == TallyOf(p, order[..head])
    && name == FirstName(p, order[..head])
  }

  /** What dequeuing one cell does to the tally and the name: a chair code
      is counted; otherwise a `(` supplies the name while none is held. */
  method Visit(p: Plan, chairs: Tally, name: Option<string>, c: Cell) returns (chairs': Tally, name': Option<string>)
    requires Rectangular(p) && InBounds(p, c) && chairs.Keys == p.chairs
    ensures chairs' == Bump(p, chairs, c)
    ensures name' == Capture(p, name, c)
  {
    var cell := p.grid[c.0][c.1];
    chairs', name' := chairs, name;
    if cell in p.chairs {
      chairs' := chairs[cell := chairs[cell] + 1];
    } else if !Named(name) && cell == '(' {
      name' := RoomName(p.grid[c.0], c.1);
    }
  }

  /** A dequeue step, as `Step` performs it, keeps the search state. */
  lemma StepKeepsSearching(p: Plan, visited: set<Cell>, marked: set<Cell>, order: seq<Cell>, parent: seq<nat>,
                           head: nat, chairs: Tally, name: Option<string>, marked': set<Cell>, added: seq<Cell>)
    requires Rectangular(p)
    requires Searching(p, visited, marked, order, parent, head, chairs, name) && head < |order|
    requires marked' == marked + Elems(added) && Distinct(added)
    requires forall n :: n in added ==> Visitable(p, marked, n) && Adjacent(order[head], n)
    requires forall a, b :: 0 <= a < b < |added| ==> Direction(order[head], added[a]) < Direction(order[head], added[b])
    requires Covered(p, order[head], marked')
    ensures Searching(p, visited, marked', order + added, parent + Fill(head, |added|), head + 1,
                      Bump(p, chairs, order[head]), Capture(p, name, order[head]))
    ensures |Cells(p) - marked'| + |order + added| == |Cells(p) - marked| + |order|
  {
    FoldStep(p, order, head);
    MarkingShrinks(p, marked, added);
    FrontierStep(p, visited, marked, order, parent, head, marked', added);
    TakeAppend(order, added, head + 1);
    forall c | c in order + added
      ensures InBounds(p, c)
    {
      if c !in order {
        assert c in added;
      }
    }
  }

  /** One iteration of the `while queue` loop: dequeue `order[head]`, count
      its chair or capture the name, then enqueue its visitable neighbours. */
  method Step(p: Plan, visited: set<Cell>, marked: set<Cell>, order: seq<Cell>, ghost parent: seq<nat>,
              head: nat, chairs: Tally, name: Option<string>)
    returns (marked': set<Cell>, order': seq<Cell>, ghost parent': seq<nat>, chairs': Tally, name': Option<string>)
    requires Rectangular(p)
    requires Searching(p, visited, marked, order, parent, head, chairs, name) && head < |order|
    ensures Searching(p, visited, marked', order', parent', head + 1, chairs', name')
    ensures |order'| >= |order| && order'[..|order|] == order
    ensures marked <= marked'
    ensures |Cells(p) - marked'| + |order'| == |Cells(p) - marked| + |order|
  {
    var c := order[head];
    assert c in order;
    chairs', name' := Visit(p, chairs, name, c);
    var added;
    marked', added := EnqueueNeighbours(p, marked, c);
    StepKeepsSearching(p, visited, marked, order, parent, head, chairs, name, marked', added);
    order', parent' := order + added, parent + Fill(head, |added|);
    assert order'[..|order|] == order;
  }

  /** The `while queue` loop of the search, from the queue holding only
      `start` (already marked) until it is empty.  The FIFO queue is the
      list `order` of every cell enqueued so far with `head` pointing at the
      next one to dequeue, so `order` ends as the dequeue order. */
  method Drain(p: Plan, visited: set<Cell>, start: Cell)
    returns (name: Option<string>, chairs: Tally, visited': set<Cell>, order: seq<Cell>, ghost parent: seq<nat>)
    requires Rectangular(p) && Visitable(p, visited, start)
    ensures Searching(p, visited, visited', order, parent, |order|, chairs, name)
    ensures order[0] == start && start in visited'
  {
    chairs := ZeroTally(p.chairs);
    name := None;
    visited' := visited + {start};
    order, parent := [start], [0];
    var head := 0;
    while head < |order|
      invariant head <= |order|
      invariant Searching(p, visited, visited', order, parent, head, chairs, name)
      invariant order[0] == start && start in visited'
      decreases |Cells(p) - visited'|, |order| - head
    {
      ghost var before := order;
      visited', order, parent, chairs, name := Step(p, visited, visited', order, parent, head, chairs, name);
      assert order[0] == before[0];
      head := head + 1;
    }
  }

  /** `breadth_first_search`: explores the 4-connected open region of
      `start` through unvisited cells, marking cells when they are enqueued
      (never a wall), so no cell is enqueued twice and at most
      `rows * cols` are.  The region it marks is closed (every open neighbour
      of a marked cell is marked) and each of its cells after the first was
      found from an earlier one.  Returns the captured name, the chair
      tally, the new marks, the dequeue order and (ghost) the cell each one
      was found from.  An empty grid gives no name and an empty tally. */
  method Explore(p: Plan, visited: set<Cell>, start: Cell)
    returns (name: Option<string>, chairs: Tally, visited': set<Cell>, order: seq<Cell>, ghost parent: seq<nat>)
    requires Rectangular(p)
    requires Empty(p) || Visitable(p, visited, start)
    ensures Empty(p) ==> name == None && chairs == map[] && visited' == visited && order == []
    ensures !Empty(p) ==> start in visited' && chairs.Keys == p.chairs
    ensures visited <= visited'
    ensures forall c :: c in visited' - visited ==> Open(p, c)
    ensures forall c :: c in visited' - visited ==> Covered(p, c, visited')
    ensures Elems(order) == visited' - visited && Distinct(order)
    ensures forall c :: c in order ==> InBounds(p, c)
    ensures !Empty(p) ==> |order| > 0 && order[0] == start
    ensures |order| <= p.rows * p.cols
    ensures DiscoveredFrom(order, parent)
    ensures forall i, j :: 0 < i < j < |order| ==> parent[i] <= parent[j]
    ensures FoundFirst(order, parent) && SiblingsInOrder(order, parent)
    ensures forall ch :: ch in p.chairs ==> Get(chairs, ch) == |Tiles(p, visited' - visited, ch)|
    ensures name == FirstName(p, order)
    ensures name.Some? ==> exists c :: c in visited' - visited && LabelCell(p, c) && Lookup(p, c) == name
    ensures name.None? ==> forall c :: c in visited' - visited && LabelCell(p, c) ==> Lookup(p, c) == None
  {
    if p.rows == 0 || p.cols == 0 {
      return None, map[], visited, [], [];
    }
    name, chairs, visited', order, parent := Drain(p, visited, start);
    assert order[..|order|] == order;
    forall c | c in visited' - visited
      ensures Covered(p, c, visited')
    {
      assert c in Elems(order);
      var k :| 0 <= k < |order| && order[k] == c;
    }
    FirstNameIsFirstLabel(p, order);
    CellsBound(p, order);
    forall ch | ch in p.chairs
      ensures Get(chairs, ch) == |Tiles(p, visited' - visited, ch)|
    {
      TallyOfCounts(p, order, ch);
      OccurrencesAreTiles(p, order, ch);
    }
  }

  /** `explore_coordinate`: a visitable cell seeds a search whose result is
      merged into the registry; any other cell changes nothing.  The ghost
      outputs are the name the search captured, a label cell that reads it,
      and the dequeue order with each cell's parent position, which ties the
      new region to `c`. */
  method ExploreCoordinate(p: Plan, visited: set<Cell>, reg: Rooms, c: Cell)
    returns (visited': set<Cell>, reg': Rooms, ghost name: Option<string>, ghost origin: Cell, ghost first: nat,
             ghost order: seq<Cell>, ghost parent: seq<nat>)
    requires Rectangular(p) && InBounds(p, c)
    ensures !Visitable(p, visited, c) ==> visited' == visited && reg' == reg && name == None && order == []
    ensures Visitable(p, visited, c) ==> |order| > 0 && order[0] == c
    ensures visited <= visited'
    ensures Elems(order) == visited' - visited && Distinct(order) && DiscoveredFrom(order, parent)
    ensures forall d :: d in order ==> InBounds(p, d)
    ensures forall i, j :: 0 < i < j < |order| ==> parent[i] <= parent[j]
    ensures FoundFirst(order, parent) && SiblingsInOrder(order, parent)
    ensures name == FirstName(p, order)
    ensures Named(name) ==> first < |order| && order[first] == origin
    ensures Named(name) ==> forall k :: 0 <= k < first && LabelCell(p, order[k]) ==> Lookup(p, order[k]) == None
    ensures forall d :: d in visited' - visited ==> Open(p, d)
    ensures forall d :: d in visited' - visited ==> Covered(p, d, visited')
    ensures Grows(reg, reg')
    ensures !Named(name) ==> reg' == reg
    ensures !Named(name) ==> forall d :: d in visited' - visited && InBounds(p, d) && LabelCell(p, d) ==> Lookup(p, d) == None
    ensures Named(name) ==> origin in visited' - visited && InBounds(p, origin) && LabelCell(p, origin) && Lookup(p, origin) == name
    ensures Named(name) ==> reg'.Keys == reg.Keys + {name.value}
    ensures Named(name) && name.value !in reg ==> reg'[name.value].Keys == p.chairs
    ensures forall room, ch :: ch in p.chairs ==>
      Count(reg', room, ch) == Count(reg, room, ch) + (if Named(name) && room == name.value then |Tiles(p, visited' - visited, ch)| else 0)
    ensures forall ch :: ch in p.chairs ==> Total(reg', ch) == Total(reg, ch) + (if Named(name) then |Tiles(p, visited' - visited, ch)| else 0)
    ensures forall ch :: ch !in p.chairs ==> Total(reg', ch) == Total(reg, ch)
    ensures ChairKeysWithin(reg, p.chairs) ==> ChairKeysWithin(reg', p.chairs)
    ensures forall room :: room in reg' && room !in reg ==> |room| > 0 && ')' !in room
  {
    origin, first := c, 0;
    if c !in visited && p.grid[c.0][c.1] !in p.walls {
      var found, chairs, queue;
      found, chairs, visited', queue, parent := Explore(p, visited, c);
      order := queue;
      reg', name := Merge(reg, found, chairs), found;
      MergeRegion(p, reg, name, chairs, visited' - visited);
      if name.Some? {
        first := FirstLabel(p, order);
        origin := order[first];
      }
    } else {
      visited', reg', name, order, parent := visited, reg, None, [], [];
    }
  }

  /** Merging the tally of `region` into the registry, seen per room and
      per chair code. */
  lemma MergeRegion(p: Plan, reg: Rooms, name: Option<string>, chairs: Tally, region: set<Cell>)
    requires Rectangular(p) && chairs.Keys == p.chairs
    requires forall ch :: ch in p.chairs ==> Get(chairs, ch) == |Tiles(p, region, ch)|
    ensures Grows(reg, Merge(reg, name, chairs))
    ensures forall room, ch :: ch in p.chairs ==>
      Count(Merge(reg, name, chairs), room, ch) == Count(reg, room, ch) + (if Named(name) && room == name.value then |Tiles(p, region, ch)| else 0)
    ensures forall ch :: ch in p.chairs ==> Total(Merge(reg, name, chairs), ch) == Total(reg, ch) + (if Named(name) then |Tiles(p, region, ch)| else 0)
    ensures forall ch :: ch !in p.chairs ==> Total(Merge(reg, name, chairs), ch) == Total(reg, ch)
    ensures ChairKeysWithin(reg, p.chairs) ==> ChairKeysWithin(Merge(reg, name, chairs), p.chairs)
  {
    MergeGrows(reg, name, chairs);
    forall ch
      ensures Total(Merge(reg, name, chairs), ch) == Total(reg, ch) + (if Named(name) then Get(chairs, ch) else 0)
    {
      MergeTotal(reg, name, chairs, ch);
    }
    if ChairKeysWithin(reg, p.chairs) {
      MergeKeepsChairKeys(reg, name, chairs, p.chairs);
    }
  }

  /** What the row-major scan keeps between cells: marks only on open
      cells, a registry grown from `reg0` by named regions only, whose total
      per chair code is `reg0`'s plus the chairs on marked cells outside the
      `dropped` (unnamed) regions. */
  ghost predicate Scanned(p: Plan, reg0: Rooms, visited: set<Cell>, reg: Rooms, dropped: set<Cell>)
    requires Rectangular(p)
  {
    && (forall c :: c in visited ==> Open(p, c))
    && dropped <= visited
    && Grows(reg0, reg)
    && (ChairKeysWithin(reg0, p.chairs) ==> ChairKeysWithin(reg, p.chairs))
    && (forall room :: room in reg && room !in reg0 ==> |room| > 0 && ')' !in room)
    && (forall c :: c in dropped && LabelCell(p, c) ==> Lookup(p, c) == None)
    && (forall ch :: ch in p.chairs ==> Total(reg, ch) == Total(reg0, ch) + |Tiles(p, visited - dropped, ch)|)
    && (forall ch :: ch !in p.chairs ==> Total(reg, ch) == Total(reg0, ch))
  }

  /** Every open cell before (x, y) in row-major order is marked. */
  ghost predicate ScannedUpTo(p: Plan, visited: set<Cell>, x: int, y: int)
    requires Rectangular(p)
  {
    forall c :: Open(p, c) && (c.0 < x || (c.0 == x && c.1 < y)) ==> c in visited
  }

  /** Marking (x, y), when open, moves the row-major frontier one cell on;
      a finished row moves it to the start of the next. */
  lemma ScannedUpToNext(p: Plan, visited: set<Cell>, visited': set<Cell>, x: int, y: int)
    requires Rectangular(p)
    requires ScannedUpTo(p, visited, x, y) && visited <= visited'
    requires Open(p, (x, y)) ==> (x, y) in visited'
    ensures ScannedUpTo(p, visited', x, y + 1)
    ensures y + 1 == p.cols ==> ScannedUpTo(p, visited', x + 1, 0)
  {
    forall c | Open(p, c) && (c.0 < x || (c.0 == x && c.1 < y + 1))
      ensures c in visited'
    {
      if c.0 == x && c.1 == y {
        assert c == (x, y);
      }
    }
  }

  lemma GrowsTransitive(a: Rooms, b: Rooms, c: Rooms)
    requires Grows(a, b) && Grows(b, c)
    ensures Grows(a, c)
  {
    forall room, ch
      ensures Count(a, room, ch) <= Count(c, room, ch)
    {
      assert Count(a, room, ch) <= Count(b, room, ch);
    }
  }

  /** Folding an unnamed region into the scan: its cells join `dropped`,
      so the counted cells stay the same and so do the totals. */
  lemma ScanUnnamed(p: Plan, reg0: Rooms, visited: set<Cell>, reg: Rooms, dropped: set<Cell>, visited': set<Cell>)
    requires Rectangular(p)
    requires Scanned(p, reg0, visited, reg, dropped)
    requires visited <= visited'
    requires forall d :: d in visited' - visited ==> Open(p, d)
    requires forall d :: d in visited' - visited && InBounds(p, d) && LabelCell(p, d) ==> Lookup(p, d) == None
    ensures Scanned(p, reg0, visited', reg, dropped + (visited' - visited))
  {
    assert visited' - (dropped + (visited' - visited)) == visited - dropped;
  }

  /** Folding a named region into the scan: its chairs join the totals. */
  lemma ScanNamed(p: Plan, reg0: Rooms, visited: set<Cell>, reg: Rooms, dropped: set<Cell>,
                  visited': set<Cell>, reg': Rooms)
    requires Rectangular(p)
    requires Scanned(p, reg0, visited, reg, dropped)
    requires visited <= visited'
    requires forall d :: d in visited' - visited ==> Open(p, d)
    requires Grows(reg, reg')
    requires forall ch :: ch in p.chairs ==> Total(reg', ch) == Total(reg, ch) + |Tiles(p, visited' - visited, ch)|
    requires forall ch :: ch !in p.chairs ==> Total(reg', ch) == Total(reg, ch)
    requires ChairKeysWithin(reg, p.chairs) ==> ChairKeysWithin(reg', p.chairs)
    requires forall room :: room in reg' && room !in reg ==> |room| > 0 && ')' !in room
    ensures Scanned(p, reg0, visited', reg', dropped)
  {
    GrowsTransitive(reg0, reg, reg');
    var region := visited' - visited;
    forall ch | ch in p.chairs
      ensures Total(reg', ch) == Total(reg0, ch) + |Tiles(p, visited' - dropped, ch)|
    {
      assert visited' - dropped == (visited - dropped) + region;
      TilesDisjointUnion(p, visited - dropped, region, ch);
    }
  }

  /** The reverse step: `Back(i)` undoes the move to neighbour `i`. */
  function Back(i: int): (j: int)
    requires 0 <= i < 4
    ensures 0 <= j < 4
  {
    if i % 2 == 0 then i + 1 else i - 1
  }

  lemma NeighbourBack(c: Cell, i: int)
    requires 0 <= i < 4
    ensures Neighbours(Neighbours(c)[i])[Back(i)] == c
  {
  }

  /** Every marked cell has all its open neighbours marked. */
  ghost predicate Closed(p: Plan, visited: set<Cell>)
    requires Rectangular(p)
  {
    forall c :: c in visited ==> Covered(p, c, visited)
  }

  /** The cells whose region took its name from a label reading `room`. */
  ghost function RoomCells(p: Plan, owner: map<Cell, Cell>, room: string): set<Cell>
    requires Rectangular(p)
  {
    set c | c in owner && InBounds(p, owner[c]) && Lookup(p, owner[c]) == Some(room)
  }

  /** `owner` maps every counted cell to the label cell that named its
      region, and that label owns itself and names a room. */
  ghost predicate Labelled(p: Plan, owner: map<Cell, Cell>)
    requires Rectangular(p)
  {
    forall c :: c in owner ==>
      && InBounds(p, owner[c]) && LabelCell(p, owner[c]) && Named(Lookup(p, owner[c]))
      && owner[c] in owner && owner[owner[c]] == owner[c]
  }

  /** Open neighbours of an owned cell are owned by the same label. */
  ghost predicate Linked(p: Plan, owner: map<Cell, Cell>)
    requires Rectangular(p)
  {
    forall c, i :: c in owner && 0 <= i < 4 && Open(p, Neighbours(c)[i]) ==>
      Neighbours(c)[i] in owner && owner[Neighbours(c)[i]] == owner[c]
  }

  /** `owner` extended by a region whose cells all go to `origin`. */
  ghost function Adopt(owner: map<Cell, Cell>, region: set<Cell>, origin: Cell): (r: map<Cell, Cell>)
    ensures r.Keys == owner.Keys + region
    ensures forall d :: d in region ==> r[d] == origin
    ensures forall d :: d in owner && d !in region ==> r[d] == owner[d]
  {
    owner + map d | d in region :: origin
  }

  /** The names the owning labels read. */
  ghost function RoomNames(p: Plan, owner: map<Cell, Cell>): set<string>
    requires Rectangular(p)
  {
    set c | c in owner && InBounds(p, owner[c]) && Lookup(p, owner[c]).Some? :: Lookup(p, owner[c]).value
  }

  /** The per-room view of the scan: the counted cells are the marked cells
      outside `dropped`, each owned by a label, and every room's count of a
      chair code is `reg0`'s plus the chairs on the cells its labels own. */
  ghost predicate Owned(p: Plan, reg0: Rooms, visited: set<Cell>, reg: Rooms, dropped: set<Cell>, owner: map<Cell, Cell>)
    requires Rectangular(p)
  {
    && Closed(p, visited)
    && owner.Keys == visited - dropped
    && Labelled(p, owner)
    && Linked(p, owner)
    && (forall room, ch :: ch in p.chairs ==>
          Count(reg, room, ch) == Count(reg0, room, ch) + |Tiles(p, RoomCells(p, owner, room), ch)|)
    && (forall c :: c in owner ==> InBounds(p, owner[c]) && Lookup(p, owner[c]).Some? && Lookup(p, owner[c]).value in reg)
    && (forall room :: room in reg && room !in reg0 ==> RoomCells(p, owner, room) != {})
  }

  /** A fresh region closed in `visited'` touches no earlier marked cell,
      as long as those were closed already. */
  lemma RegionApart(p: Plan, visited: set<Cell>, visited': set<Cell>)
    requires Rectangular(p) && Closed(p, visited) && visited <= visited'
    requires forall d :: d in visited' - visited ==> Open(p, d) && Covered(p, d, visited')
    ensures Closed(p, visited')
    ensures forall d, i :: d in visited' - visited && 0 <= i < 4 && Open(p, Neighbours(d)[i]) ==>
      Neighbours(d)[i] in visited' - visited
  {
    forall d | d in visited'
      ensures Covered(p, d, visited')
    {
      if d in visited {
        CoveredGrows(p, d, visited, visited');
      }
    }
    forall d, i | d in visited' - visited && 0 <= i < 4 && Open(p, Neighbours(d)[i])
      ensures Neighbours(d)[i] in visited' - visited
    {
      NeighbourBack(d, i);
    }
  }

  /** An unnamed region is dropped: nothing owned changes. */
  lemma OwnUnnamed(p: Plan, reg0: Rooms, visited: set<Cell>, reg: Rooms, dropped: set<Cell>, owner: map<Cell, Cell>,
                   visited': set<Cell>)
    requires Rectangular(p)
    requires Owned(p, reg0, visited, reg, dropped, owner) && dropped <= visited <= visited'
    requires forall d :: d in visited' - visited ==> Open(p, d) && Covered(p, d, visited')
    ensures Owned(p, reg0, visited', reg, dropped + (visited' - visited), owner)
  {
    RegionApart(p, visited, visited');
    assert visited' - (dropped + (visited' - visited)) == visited - dropped;
  }

  /** A named region is owned by the label that named it. */
  lemma OwnNamed(p: Plan, reg0: Rooms, visited: set<Cell>, reg: Rooms, dropped: set<Cell>, owner: map<Cell, Cell>,
                 visited': set<Cell>, reg': Rooms, origin: Cell, room: string)
    requires Rectangular(p)
    requires Owned(p, reg0, visited, reg, dropped, owner) && dropped <= visited <= visited'
    requires forall d :: d in visited' - visited ==> Open(p, d) && Covered(p, d, visited')
    requires origin in visited' - visited && InBounds(p, origin) && LabelCell(p, origin)
    requires Named(Some(room)) && Lookup(p, origin) == Some(room)
    requires reg'.Keys == reg.Keys + {room}
    requires forall room, ch :: ch in p.chairs ==>
      Count(reg', room, ch) == Count(reg0, room, ch) + |Tiles(p, RoomCells(p, Adopt(owner, visited' - visited, origin), room), ch)|
    ensures Owned(p, reg0, visited', reg', dropped, Adopt(owner, visited' - visited, origin))
  {
    var region := visited' - visited;
    AdoptShape(p, visited, dropped, owner, visited', origin);
    RegisteredExtend(p, reg0, reg, reg', owner, region, origin, room);
  }

  /** The shape part of `Owned` after a named region is adopted: marks stay
      closed, and ownership stays labelled and shared by open neighbours. */
  lemma AdoptShape(p: Plan, visited: set<Cell>, dropped: set<Cell>, owner: map<Cell, Cell>,
                   visited': set<Cell>, origin: Cell)
    requires Rectangular(p)
    requires Closed(p, visited) && owner.Keys == visited - dropped && Labelled(p, owner) && Linked(p, owner)
    requires dropped <= visited <= visited'
    requires forall d :: d in visited' - visited ==> Open(p, d) && Covered(p, d, visited')
    requires origin in visited' - visited && InBounds(p, origin) && LabelCell(p, origin) && Named(Lookup(p, origin))
    ensures var owner' := Adopt(owner, visited' - visited, origin);
      Closed(p, visited') && owner'.Keys == visited' - dropped && Labelled(p, owner') && Linked(p, owner')
  {
    var region := visited' - visited;
    var owner' := Adopt(owner, region, origin);
    RegionApart(p, visited, visited');
    assert owner'.Keys == visited' - dropped;
    LabelledExtend(p, owner, region, origin);
    LinkedExtend(p, owner, region, origin);
  }

  /** Adopting a region under `origin` registers the name `origin` reads. */
  lemma RegisteredExtend(p: Plan, reg0: Rooms, reg: Rooms, reg': Rooms, owner: map<Cell, Cell>,
                         region: set<Cell>, origin: Cell, room: string)
    requires Rectangular(p)
    requires forall c :: c in owner ==> InBounds(p, owner[c]) && Lookup(p, owner[c]).Some? && Lookup(p, owner[c]).value in reg
    requires forall r :: r in reg && r !in reg0 ==> RoomCells(p, owner, r) != {}
    requires origin in region && InBounds(p, origin) && Lookup(p, origin) == Some(room)
    requires forall d :: d in region ==> d !in owner
    requires reg'.Keys == reg.Keys + {room}
    ensures var owner' := Adopt(owner, region, origin);
      forall c :: c in owner' ==> InBounds(p, owner'[c]) && Lookup(p, owner'[c]).Some? && Lookup(p, owner'[c]).value in reg'
    ensures forall r :: r in reg' && r !in reg0 ==> RoomCells(p, Adopt(owner, region, origin), r) != {}
  {
    var owner' := Adopt(owner, region, origin);
    forall c | c in owner'
      ensures InBounds(p, owner'[c]) && Lookup(p, owner'[c]).Some? && Lookup(p, owner'[c]).value in reg'
    {
      if c !in region {
        assert owner'[c] == owner[c];
      }
    }
    forall r | r in reg' && r !in reg0
      ensures RoomCells(p, owner', r) != {}
    {
      if r == room {
        assert origin in owner' && owner'[origin] == origin;
        assert origin in RoomCells(p, owner', r);
      } else {
        var c :| c in RoomCells(p, owner, r);
        assert c in owner' && owner'[c] == owner[c];
        assert c in RoomCells(p, owner', r);
      }
    }
  }

  /** The per-room counts after folding a region named from `origin`. */
  lemma CountsExtend(p: Plan, reg0: Rooms, reg: Rooms, reg': Rooms, owner: map<Cell, Cell>, region: set<Cell>, origin: Cell,
                     named: string)
    requires Rectangular(p) && InBounds(p, origin) && Lookup(p, origin) == Some(named)
    requires forall d :: d in region ==> d !in owner
    requires forall room, ch :: ch in p.chairs ==>
      Count(reg, room, ch) == Count(reg0, room, ch) + |Tiles(p, RoomCells(p, owner, room), ch)|
    requires forall room, ch :: ch in p.chairs ==>
      Count(reg', room, ch) == Count(reg, room, ch) + (if room == named then |Tiles(p, region, ch)| else 0)
    ensures forall room, ch :: ch in p.chairs ==>
      Count(reg', room, ch) == Count(reg0, room, ch) + |Tiles(p, RoomCells(p, Adopt(owner, region, origin), room), ch)|
  {
    forall room, ch | ch in p.chairs
      ensures Count(reg', room, ch) == Count(reg0, room, ch) + |Tiles(p, RoomCells(p, Adopt(owner, region, origin), room), ch)|
    {
      RoomCellsExtend(p, owner, region, origin, room);
      if room == named {
        TilesDisjointUnion(p, RoomCells(p, owner, room), region, ch);
      }
    }
  }

  /** The cells of a room after adding a region owned by `origin`. */
  lemma RoomCellsExtend(p: Plan, owner: map<Cell, Cell>, region: set<Cell>, origin: Cell, room: string)
    requires Rectangular(p) && InBounds(p, origin)
    requires forall d :: d in region ==> d !in owner
    ensures RoomCells(p, Adopt(owner, region, origin), room) ==
      RoomCells(p, owner, room) + (if Lookup(p, origin) == Some(room) then region else {})
  {
  }

  /** Adding a region owned by one label inside it keeps `Labelled`. */
  lemma LabelledExtend(p: Plan, owner: map<Cell, Cell>, region: set<Cell>, origin: Cell)
    requires Rectangular(p) && Labelled(p, owner)
    requires forall d :: d in region ==> d !in owner
    requires origin in region && InBounds(p, origin) && LabelCell(p, origin) && Named(Lookup(p, origin))
    ensures Labelled(p, Adopt(owner, region, origin))
  {
    var owner' := Adopt(owner, region, origin);
    forall c | c in owner'
      ensures InBounds(p, owner'[c]) && LabelCell(p, owner'[c]) && Named(Lookup(p, owner'[c]))
      ensures owner'[c] in owner' && owner'[owner'[c]] == owner'[c]
    {
      if c in region {
        assert owner'[c] == origin && owner'[origin] == origin;
      } else {
        var o := owner[c];
        assert owner'[c] == o && o in owner && owner[o] == o && o !in region;
      }
    }
  }

  /** Adding a region that borders no owned cell, all owned by one label,
      keeps `Linked`. */
  lemma LinkedExtend(p: Plan, owner: map<Cell, Cell>, region: set<Cell>, origin: Cell)
    requires Rectangular(p) && Linked(p, owner)
    requires forall d :: d in region ==> d !in owner
    requires forall d, i :: d in region && 0 <= i < 4 && Open(p, Neighbours(d)[i]) ==> Neighbours(d)[i] in region
    ensures Linked(p, Adopt(owner, region, origin))
  {
  }

  /** Where each cell sits in the dequeue order. */
  ghost function Positions(order: seq<Cell>): (r: map<Cell, nat>)
    requires Distinct(order)
    ensures r.Keys == Elems(order)
    ensures forall i :: 0 <= i < |order| ==> r[order[i]] == i
  {
    map i | 0 <= i < |order| :: order[i] := i
  }

  /** Some open neighbour of `c` lies in the same seeded region, closer to
      its seed. */
  ghost predicate Toward(p: Plan, owner: map<Cell, Cell>, seed: map<Cell, Cell>, depth: map<Cell, nat>, c: Cell)
    requires Rectangular(p) && seed.Keys == owner.Keys && depth.Keys == owner.Keys && c in owner
  {
    exists i :: 0 <= i < 4 && Open(p, Neighbours(c)[i]) && Neighbours(c)[i] in owner
      && seed[Neighbours(c)[i]] == seed[c] && depth[Neighbours(c)[i]] < depth[c]
  }

  /** Every owned cell's label starts from the same seed as the cell. */
  ghost predicate SeedsAgree(owner: map<Cell, Cell>, seed: map<Cell, Cell>) {
    forall c :: c in owner ==> owner[c] in seed && c in seed && seed[owner[c]] == seed[c]
  }

  /** Every owned cell other than a seed has a step toward its seed. */
  ghost predicate Descends(p: Plan, owner: map<Cell, Cell>, seed: map<Cell, Cell>, depth: map<Cell, nat>)
    requires Rectangular(p) && seed.Keys == owner.Keys && depth.Keys == owner.Keys
  {
    forall c :: c in owner && c != seed[c] ==> Toward(p, owner, seed, depth, c)
  }

  /** Every owned cell descends, step by step through open neighbours, to
      the `seed` its search started from, and its owning label descends to
      the same seed: an owner lies in its cell's own region. */
  ghost predicate Rooted(p: Plan, owner: map<Cell, Cell>, seed: map<Cell, Cell>, depth: map<Cell, nat>)
    requires Rectangular(p)
  {
    && seed.Keys == owner.Keys && depth.Keys == owner.Keys
    && SeedsAgree(owner, seed)
    && Descends(p, owner, seed, depth)
  }

  /** A walk through open owned cells, each step to a neighbour. */
  ghost predicate Walk(p: Plan, owner: map<Cell, Cell>, w: seq<Cell>)
    requires Rectangular(p)
  {
    && |w| > 0
    && (forall i :: 0 <= i < |w| ==> w[i] in owner && Open(p, w[i]))
    && (forall i :: 0 <= i < |w| - 1 ==> Adjacent(w[i], w[i + 1]))
  }

  /** A step from an owned cell other than a seed toward its seed. */
  lemma StepToward(p: Plan, owner: map<Cell, Cell>, seed: map<Cell, Cell>, depth: map<Cell, nat>, c: Cell)
    returns (d: Cell)
    requires Rectangular(p) && seed.Keys == owner.Keys && depth.Keys == owner.Keys && Descends(p, owner, seed, depth)
    requires c in owner && c != seed[c]
    ensures d in owner && Open(p, d) && Adjacent(d, c) && seed[d] == seed[c] && depth[d] < depth[c]
  {
    assert Toward(p, owner, seed, depth, c);
    var i :| 0 <= i < 4 && Open(p, Neighbours(c)[i]) && Neighbours(c)[i] in owner
      && seed[Neighbours(c)[i]] == seed[c] && depth[Neighbours(c)[i]] < depth[c];
    d := Neighbours(c)[i];
    AdjacentSymmetric(c, d);
  }

  /** Every open owned cell is reached from its seed by a walk. */
  lemma {:induction false} WalkFromSeed(p: Plan, owner: map<Cell, Cell>, seed: map<Cell, Cell>, depth: map<Cell, nat>, c: Cell)
    returns (w: seq<Cell>)
    requires Rectangular(p) && seed.Keys == owner.Keys && depth.Keys == owner.Keys && Descends(p, owner, seed, depth)
    requires c in owner && Open(p, c)
    ensures Walk(p, owner, w) && w[0] == seed[c] && w[|w| - 1] == c
    decreases depth[c]
  {
    if c == seed[c] {
      w := [c];
    } else {
      var d := StepToward(p, owner, seed, depth, c);
      var v := WalkFromSeed(p, owner, seed, depth, d);
      w := WalkSnoc(p, owner, v, c);
    }
  }

  /** An owned cell and its owning label are joined by a walk through open
      owned cells: the label lies in the cell's own region. */
  lemma OwnerConnected(p: Plan, owner: map<Cell, Cell>, seed: map<Cell, Cell>, depth: map<Cell, nat>, c: Cell)
    returns (w: seq<Cell>)
    requires Rectangular(p) && Rooted(p, owner, seed, depth)
    requires forall d :: d in owner ==> Open(p, d)
    requires c in owner
    ensures Walk(p, owner, w) && w[0] == owner[c] && w[|w| - 1] == c
  {
    var u := WalkFromSeed(p, owner, seed, depth, owner[c]);
    var v := WalkFromSeed(p, owner, seed, depth, c);
    ReverseWalk(p, owner, u);
    WalkJoin(p, owner, Reverse(u), v);
    w := Reverse(u) + v[1..];
  }

  /** A walk extended by one step to a neighbour. */
  lemma WalkSnoc(p: Plan, owner: map<Cell, Cell>, v: seq<Cell>, c: Cell) returns (w: seq<Cell>)
    requires Rectangular(p) && Walk(p, owner, v)
    requires c in owner && Open(p, c) && Adjacent(v[|v| - 1], c)
    ensures w == v + [c] && Walk(p, owner, w) && w[0] == v[0] && w[|w| - 1] == c
  {
    w := v + [c];
    forall i | 0 <= i < |w| - 1
      ensures Adjacent(w[i], w[i + 1])
    {
      if i < |v| - 1 {
        assert w[i] == v[i] && w[i + 1] == v[i + 1];
      }
    }
  }

  /** Two walks meeting at a cell join into one. */
  lemma WalkJoin(p: Plan, owner: map<Cell, Cell>, u: seq<Cell>, v: seq<Cell>)
    requires Rectangular(p) && Walk(p, owner, u) && Walk(p, owner, v) && u[|u| - 1] == v[0]
    ensures var w := u + v[1..]; Walk(p, owner, w) && w[0] == u[0] && w[|w| - 1] == v[|v| - 1]
  {
    var w := u + v[1..];
    forall i | 0 <= i < |w| - 1
      ensures Adjacent(w[i], w[i + 1])
    {
      if i >= |u| - 1 {
        assert w[i] == v[i - |u| + 1] && w[i + 1] == v[i - |u| + 2];
      } else {
        assert w[i] == u[i] && w[i + 1] == u[i + 1];
      }
    }
    forall i | 0 <= i < |w|
      ensures w[i] in owner && Open(p, w[i])
    {
      if i >= |u| {
        assert w[i] == v[i - |u| + 1];
      }
    }
  }

  /** A sequence backwards. */
  function Reverse<T>(s: seq<T>): (r: seq<T>)
    ensures |r| == |s| && forall i :: 0 <= i < |s| ==> r[i] == s[|s| - 1 - i]
  {
    if s == [] then [] else Reverse(s[1..]) + [s[0]]
  }

  /** A walk read backwards is a walk: adjacency is symmetric. */
  lemma ReverseWalk(p: Plan, owner: map<Cell, Cell>, w: seq<Cell>)
    requires Rectangular(p) && Walk(p, owner, w)
    ensures Walk(p, owner, Reverse(w))
  {
    var r := Reverse(w);
    forall i | 0 <= i < |r| - 1
      ensures Adjacent(r[i], r[i + 1])
    {
      var k := |w| - 2 - i;
      AdjacentSymmetric(w[k], w[k + 1]);
    }
  }

  /** A region found by one search, owned by a label inside it, is rooted at
      the search's start with the dequeue positions as depths. */
  lemma RootedExtend(p: Plan, owner: map<Cell, Cell>, seed: map<Cell, Cell>, depth: map<Cell, nat>,
                     region: set<Cell>, origin: Cell, order: seq<Cell>, parent: seq<nat>)
    requires Rectangular(p) && Rooted(p, owner, seed, depth)
    requires forall d :: d in region ==> d !in owner && Open(p, d)
    requires Elems(order) == region && Distinct(order) && DiscoveredFrom(order, parent) && |order| > 0
    requires origin in region
    ensures Rooted(p, Adopt(owner, region, origin), Adopt(seed, region, order[0]), depth + Positions(order))
  {
    SeedsExtend(owner, seed, region, origin, order[0]);
    DescendsAdopt(p, owner, seed, depth, region, origin, order, parent);
  }

  /** The keys and the steps toward the seed after adopting a searched region. */
  lemma DescendsAdopt(p: Plan, owner: map<Cell, Cell>, seed: map<Cell, Cell>, depth: map<Cell, nat>,
                      region: set<Cell>, origin: Cell, order: seq<Cell>, parent: seq<nat>)
    requires Rectangular(p) && seed.Keys == owner.Keys && depth.Keys == owner.Keys && Descends(p, owner, seed, depth)
    requires forall d :: d in region ==> d !in owner && Open(p, d)
    requires Elems(order) == region && Distinct(order) && DiscoveredFrom(order, parent) && |order| > 0
    ensures var owner', seed', depth' := Adopt(owner, region, origin), Adopt(seed, region, order[0]), depth + Positions(order);
      seed'.Keys == owner'.Keys && depth'.Keys == owner'.Keys && Descends(p, owner', seed', depth')
  {
    var owner', seed', depth' := Adopt(owner, region, origin), Adopt(seed, region, order[0]), depth + Positions(order);
    DepthsExtend(owner, seed, depth, region, order);
    DescendsExtend(p, owner, seed, depth, owner', seed', depth', region, order, parent);
  }

  lemma SeedsExtend(owner: map<Cell, Cell>, seed: map<Cell, Cell>, region: set<Cell>, origin: Cell, start: Cell)
    requires SeedsAgree(owner, seed) && seed.Keys == owner.Keys
    requires forall d :: d in region ==> d !in owner
    requires origin in region
    ensures SeedsAgree(Adopt(owner, region, origin), Adopt(seed, region, start))
  {
    var owner', seed' := Adopt(owner, region, origin), Adopt(seed, region, start);
    forall c | c in owner'
      ensures owner'[c] in seed' && c in seed' && seed'[owner'[c]] == seed'[c]
    {
      if c !in region {
        assert owner[c] in owner;
      }
    }
  }

  /** The new region's cells take the search's start as seed and their
      dequeue positions as depths; the old cells keep theirs. */
  lemma DepthsExtend(owner: map<Cell, Cell>, seed: map<Cell, Cell>, depth: map<Cell, nat>, region: set<Cell>, order: seq<Cell>)
    requires seed.Keys == owner.Keys && depth.Keys == owner.Keys
    requires forall d :: d in region ==> d !in owner
    requires Elems(order) == region && Distinct(order) && |order| > 0
    ensures var seed', depth' := Adopt(seed, region, order[0]), depth + Positions(order);
      && seed'.Keys == owner.Keys + region && depth'.Keys == owner.Keys + region
      && (forall i :: 0 <= i < |order| ==> seed'[order[i]] == order[0] && depth'[order[i]] == i)
      && (forall d :: d in owner ==> seed'[d] == seed[d] && depth'[d] == depth[d])
  {
    var seed', depth', pos := Adopt(seed, region, order[0]), depth + Positions(order), Positions(order);
    forall i | 0 <= i < |order|
      ensures seed'[order[i]] == order[0] && depth'[order[i]] == i
    {
      assert order[i] in region && pos[order[i]] == i;
    }
    forall d | d in owner
      ensures seed'[d] == seed[d] && depth'[d] == depth[d]
    {
      assert d !in region && d !in pos;
    }
  }

  /** The step toward the seed survives adopting a searched region. */
  lemma DescendsExtend(p: Plan, owner: map<Cell, Cell>, seed: map<Cell, Cell>, depth: map<Cell, nat>,
                       owner': map<Cell, Cell>, seed': map<Cell, Cell>, depth': map<Cell, nat>,
                       region: set<Cell>, order: seq<Cell>, parent: seq<nat>)
    requires Rectangular(p) && seed.Keys == owner.Keys && depth.Keys == owner.Keys
    requires Descends(p, owner, seed, depth)
    requires forall d :: d in region ==> d !in owner && Open(p, d)
    requires Elems(order) == region && Distinct(order) && DiscoveredFrom(order, parent) && |order| > 0
    requires owner'.Keys == owner.Keys + region && seed'.Keys == owner'.Keys && depth'.Keys == owner'.Keys
    requires forall i :: 0 <= i < |order| ==> seed'[order[i]] == order[0] && depth'[order[i]] == i
    requires forall d :: d in owner ==> seed'[d] == seed[d] && depth'[d] == depth[d]
    ensures Descends(p, owner', seed', depth')
  {
    forall i | 0 <= i < |order|
      ensures Open(p, order[i]) && order[i] in owner'
    {
      assert order[i] in order;
      assert order[i] in region;
    }
    forall c | c in owner' && c != seed'[c]
      ensures Toward(p, owner', seed', depth', c)
    {
      if c in owner {
        TowardKept(p, owner, seed, depth, owner', seed', depth', c);
      } else {
        TowardInRegion(p, owner', seed', depth', order, parent, c);
      }
    }
  }

  /** A cell found by the search from its parent's position steps back to
      that parent, which sits earlier in the dequeue order. */
  lemma TowardInRegion(p: Plan, owner: map<Cell, Cell>, seed: map<Cell, Cell>, depth: map<Cell, nat>,
                       order: seq<Cell>, parent: seq<nat>, c: Cell)
    requires Rectangular(p) && seed.Keys == owner.Keys && depth.Keys == owner.Keys
    requires Distinct(order) && DiscoveredFrom(order, parent)
    requires forall i :: 0 <= i < |order| ==> order[i] in owner && Open(p, order[i])
    requires forall i :: 0 <= i < |order| ==> seed[order[i]] == order[0] && depth[order[i]] == i
    requires c in order && c != order[0]
    ensures Toward(p, owner, seed, depth, c)
  {
    var i :| 0 <= i < |order| && order[i] == c;
    var q := order[parent[i]];
    var j :| 0 <= j < 4 && Neighbours(q)[j] == c;
    NeighbourBack(q, j);
    assert Neighbours(c)[Back(j)] == q;
  }

  /** Growing the maps elsewhere keeps a cell's step toward its seed. */
  lemma TowardKept(p: Plan, owner: map<Cell, Cell>, seed: map<Cell, Cell>, depth: map<Cell, nat>,
                   owner': map<Cell, Cell>, seed': map<Cell, Cell>, depth': map<Cell, nat>, c: Cell)
    requires Rectangular(p) && seed.Keys == owner.Keys && depth.Keys == owner.Keys
    requires seed'.Keys == owner'.Keys && depth'.Keys == owner'.Keys && owner.Keys <= owner'.Keys
    requires forall d :: d in owner ==> seed'[d] == seed[d] && depth'[d] == depth[d]
    requires c in owner && Toward(p, owner, seed, depth, c)
    ensures Toward(p, owner', seed', depth', c)
  {
    var k :| 0 <= k < 4 && Open(p, Neighbours(c)[k]) && Neighbours(c)[k] in owner
      && seed[Neighbours(c)[k]] == seed[c] && depth[Neighbours(c)[k]] < depth[c];
    assert Neighbours(c)[k] in owner';
  }

  /** Each owner is the first name-yielding label its search dequeued, and
      the seeds are themselves owned cells. */
  ghost predicate FirstOwner(p: Plan, owner: map<Cell, Cell>, seed: map<Cell, Cell>, depth: map<Cell, nat>)
    requires Rectangular(p)
  {
    seed.Values <= owner.Keys && FirstLabels(p, owner, seed, depth)
  }

  /** No label cell of the same search as a cell, at a smaller depth than
      the cell's owner, yields a name. */
  ghost predicate FirstLabels(p: Plan, owner: map<Cell, Cell>, seed: map<Cell, Cell>, depth: map<Cell, nat>)
    requires Rectangular(p)
  {
    forall c, d {:trigger Lookup(p, d), owner[c]} ::
      c in owner && c in seed && d in seed && d in depth && owner[c] in depth
      && seed[d] == seed[c] && depth[d] < depth[owner[c]] && InBounds(p, d) && LabelCell(p, d)
      ==> Lookup(p, d) == None
  }

  /** Adopting a searched region whose owner is the first name-yielding
      label in its dequeue order keeps `FirstOwner`. */
  lemma FirstOwnerExtend(p: Plan, owner: map<Cell, Cell>, seed: map<Cell, Cell>, depth: map<Cell, nat>,
                         region: set<Cell>, origin: Cell, first: nat, order: seq<Cell>)
    requires Rectangular(p) && seed.Keys == owner.Keys && depth.Keys == owner.Keys && SeedsAgree(owner, seed)
    requires FirstOwner(p, owner, seed, depth)
    requires forall d :: d in region ==> d !in owner
    requires Elems(order) == region && Distinct(order) && |order| > 0
    requires forall d :: d in order ==> InBounds(p, d)
    requires first < |order| && order[first] == origin
    requires forall k :: 0 <= k < first && LabelCell(p, order[k]) ==> Lookup(p, order[k]) == None
    ensures FirstOwner(p, Adopt(owner, region, origin), Adopt(seed, region, order[0]), depth + Positions(order))
  {
    assert order[0] in order;
    SeedsOwnedExtend(owner, seed, region, order[0]);
    forall x | x in owner
      ensures seed[x] !in region
    {
      assert seed[x] in seed.Values;
    }
    FirstLabelsAdopt(p, owner, seed, depth, region, origin, first, order);
  }

  /** `FirstLabels` over the maps grown by one searched region. */
  lemma FirstLabelsAdopt(p: Plan, owner: map<Cell, Cell>, seed: map<Cell, Cell>, depth: map<Cell, nat>,
                         region: set<Cell>, origin: Cell, first: nat, order: seq<Cell>)
    requires Rectangular(p) && seed.Keys == owner.Keys && depth.Keys == owner.Keys && SeedsAgree(owner, seed)
    requires FirstLabels(p, owner, seed, depth) && forall x :: x in owner ==> seed[x] !in region
    requires forall d :: d in region ==> d !in owner
    requires Elems(order) == region && Distinct(order) && |order| > 0
    requires forall d :: d in order ==> InBounds(p, d)
    requires first < |order| && order[first] == origin
    requires forall k :: 0 <= k < first && LabelCell(p, order[k]) ==> Lookup(p, order[k]) == None
    ensures FirstLabels(p, Adopt(owner, region, origin), Adopt(seed, region, order[0]), depth + Positions(order))
  {
    var owner', seed', depth' := Adopt(owner, region, origin), Adopt(seed, region, order[0]), depth + Positions(order);
    DepthsExtend(owner, seed, depth, region, order);
    FirstLabelsExtend(p, owner, seed, depth, owner', seed', depth', region, origin, first, order);
  }

  /** The seeds stay owned cells when a region is adopted from one of its
      own cells. */
  lemma SeedsOwnedExtend(owner: map<Cell, Cell>, seed: map<Cell, Cell>, region: set<Cell>, start: Cell)
    requires seed.Keys == owner.Keys && seed.Values <= owner.Keys && start in region
    ensures Adopt(seed, region, start).Values <= owner.Keys + region
  {
    var seed' := Adopt(seed, region, start);
    forall v | v in seed'.Values
      ensures v in owner.Keys + region
    {
      var c :| c in seed' && seed'[c] == v;
      if c !in region {
        assert seed[c] in seed.Values;
      }
    }
  }

  /** The ordering half of `FirstOwnerExtend`, over the grown maps as given. */
  lemma FirstLabelsExtend(p: Plan, owner: map<Cell, Cell>, seed: map<Cell, Cell>, depth: map<Cell, nat>,
                          owner': map<Cell, Cell>, seed': map<Cell, Cell>, depth': map<Cell, nat>,
                          region: set<Cell>, origin: Cell, first: nat, order: seq<Cell>)
    requires Rectangular(p) && seed.Keys == owner.Keys && depth.Keys == owner.Keys && FirstLabels(p, owner, seed, depth)
    requires forall c :: c in owner ==> owner[c] in owner
    requires seed'.Keys == owner'.Keys && depth'.Keys == owner'.Keys && owner'.Keys == owner.Keys + region
    requires forall x :: x in region ==> x !in owner
    requires Elems(order) == region && |order| > 0 && first < |order| && order[first] == origin
    requires forall k :: 0 <= k < first && InBounds(p, order[k]) && LabelCell(p, order[k]) ==> Lookup(p, order[k]) == None
    requires forall x :: x in region ==> owner'[x] == origin && seed'[x] == order[0]
    requires forall i :: 0 <= i < |order| ==> depth'[order[i]] == i
    requires forall x :: x in owner ==> owner'[x] == owner[x] && seed'[x] == seed[x] && depth'[x] == depth[x]
    requires forall x :: x in owner ==> seed[x] !in region
    ensures FirstLabels(p, owner', seed', depth')
  {
    assert order[0] in order && order[first] in order;
    forall c, d | c in owner' && c in seed' && d in seed' && d in depth' && owner'[c] in depth'
                  && seed'[d] == seed'[c] && depth'[d] < depth'[owner'[c]] && InBounds(p, d) && LabelCell(p, d)
      ensures Lookup(p, d) == None
    {
      if c in owner {
        assert owner[c] in owner;
        assert d in owner by {
          assert order[0] in region;
        }
      } else {
        assert owner'[c] == origin && depth'[origin] == first;
        assert d !in owner by {
          assert order[0] in region;
        }
        var k :| 0 <= k < |order| && order[k] == d;
      }
    }
  }

  /** A named region found by `explore_coordinate` is counted, owned by
      the label that named it and rooted at the search's start. */
  lemma ScanAdopt(p: Plan, reg0: Rooms, visited: set<Cell>, reg: Rooms, dropped: set<Cell>,
                  owner: map<Cell, Cell>, seed: map<Cell, Cell>, depth: map<Cell, nat>,
                  visited': set<Cell>, reg': Rooms, name: Option<string>, origin: Cell, first: nat, order: seq<Cell>, parent: seq<nat>)
    returns (owner': map<Cell, Cell>, seed': map<Cell, Cell>, depth': map<Cell, nat>)
    requires Rectangular(p)
    requires Scanned(p, reg0, visited, reg, dropped) && Owned(p, reg0, visited, reg, dropped, owner)
    requires Rooted(p, owner, seed, depth) && FirstOwner(p, owner, seed, depth)
    requires visited <= visited' && |order| > 0
    requires Elems(order) == visited' - visited && Distinct(order) && DiscoveredFrom(order, parent)
    requires forall d :: d in visited' - visited ==> Open(p, d)
    requires forall d :: d in visited' - visited ==> Covered(p, d, visited')
    requires Grows(reg, reg') && Named(name)
    requires origin in visited' - visited && InBounds(p, origin) && LabelCell(p, origin) && Lookup(p, origin) == name
    requires reg'.Keys == reg.Keys + {name.value}
    requires forall d :: d in order ==> InBounds(p, d)
    requires first < |order| && order[first] == origin
    requires forall k :: 0 <= k < first && LabelCell(p, order[k]) ==> Lookup(p, order[k]) == None
    requires forall room, ch :: ch in p.chairs ==>
      Count(reg', room, ch) == Count(reg, room, ch) + (if Named(name) && room == name.value then |Tiles(p, visited' - visited, ch)| else 0)
    requires forall ch :: ch in p.chairs ==> Total(reg', ch) == Total(reg, ch) + (if Named(name) then |Tiles(p, visited' - visited, ch)| else 0)
    requires forall ch :: ch !in p.chairs ==> Total(reg', ch) == Total(reg, ch)
    requires ChairKeysWithin(reg, p.chairs) ==> ChairKeysWithin(reg', p.chairs)
    requires forall room :: room in reg' && room !in reg ==> |room| > 0 && ')' !in room
    ensures Scanned(p, reg0, visited', reg', dropped) && Owned(p, reg0, visited', reg', dropped, owner')
    ensures Rooted(p, owner', seed', depth') && FirstOwner(p, owner', seed', depth')
  {
    var region := visited' - visited;
    owner', seed', depth' := Adopt(owner, region, origin), Adopt(seed, region, order[0]), depth + Positions(order);
    ScanNamed(p, reg0, visited, reg, dropped, visited', reg');
    CountsExtend(p, reg0, reg, reg', owner, region, origin, name.value);
    OwnNamed(p, reg0, visited, reg, dropped, owner, visited', reg', origin, name.value);
    RootedExtend(p, owner, seed, depth, region, origin, order, parent);
    FirstOwnerExtend(p, owner, seed, depth, region, origin, first, order);
  }

  /** An unnamed region found by `explore_coordinate` is dropped. */
  lemma ScanDrop(p: Plan, reg0: Rooms, visited: set<Cell>, reg: Rooms, dropped: set<Cell>, owner: map<Cell, Cell>,
                 visited': set<Cell>, reg': Rooms)
    requires Rectangular(p)
    requires Scanned(p, reg0, visited, reg, dropped) && Owned(p, reg0, visited, reg, dropped, owner)
    requires visited <= visited'
    requires forall d :: d in visited' - visited ==> Open(p, d)
    requires forall d :: d in visited' - visited ==> Covered(p, d, visited')
    requires reg' == reg
    requires forall d :: d in visited' - visited && InBounds(p, d) && LabelCell(p, d) ==> Lookup(p, d) == None
    ensures Scanned(p, reg0, visited', reg', dropped + (visited' - visited))
    ensures Owned(p, reg0, visited', reg', dropped + (visited' - visited), owner)
  {
    ScanUnnamed(p, reg0, visited, reg, dropped, visited');
    OwnUnnamed(p, reg0, visited, reg, dropped, owner, visited');
  }

  /** One region found by `explore_coordinate`: adopted when named, dropped otherwise. */
  lemma ScanStep(p: Plan, reg0: Rooms, visited: set<Cell>, reg: Rooms, dropped: set<Cell>,
                 owner: map<Cell, Cell>, seed: map<Cell, Cell>, depth: map<Cell, nat>,
                 visited': set<Cell>, reg': Rooms, name: Option<string>, origin: Cell, first: nat, order: seq<Cell>, parent: seq<nat>)
    returns (dropped': set<Cell>, owner': map<Cell, Cell>, seed': map<Cell, Cell>, depth': map<Cell, nat>)
    requires Rectangular(p)
    requires Scanned(p, reg0, visited, reg, dropped) && Owned(p, reg0, visited, reg, dropped, owner)
    requires Rooted(p, owner, seed, depth) && FirstOwner(p, owner, seed, depth)
    requires visited <= visited' && |order| > 0
    requires Elems(order) == visited' - visited && Distinct(order) && DiscoveredFrom(order, parent)
    requires forall d :: d in visited' - visited ==> Open(p, d)
    requires forall d :: d in visited' - visited ==> Covered(p, d, visited')
    requires Grows(reg, reg')
    requires !Named(name) ==> reg' == reg
    requires !Named(name) ==> forall d :: d in visited' - visited && InBounds(p, d) && LabelCell(p, d) ==> Lookup(p, d) == None
    requires Named(name) ==> origin in visited' - visited && InBounds(p, origin) && LabelCell(p, origin) && Lookup(p, origin) == name
    requires Named(name) ==> reg'.Keys == reg.Keys + {name.value}
    requires forall d :: d in order ==> InBounds(p, d)
    requires Named(name) ==> first < |order| && order[first] == origin
    requires Named(name) ==> forall k :: 0 <= k < first && LabelCell(p, order[k]) ==> Lookup(p, order[k]) == None
    requires forall room, ch :: ch in p.chairs ==>
      Count(reg', room, ch) == Count(reg, room, ch) + (if Named(name) && room == name.value then |Tiles(p, visited' - visited, ch)| else 0)
    requires forall ch :: ch in p.chairs ==> Total(reg', ch) == Total(reg, ch) + (if Named(name) then |Tiles(p, visited' - visited, ch)| else 0)
    requires forall ch :: ch !in p.chairs ==> Total(reg', ch) == Total(reg, ch)
    requires ChairKeysWithin(reg, p.chairs) ==> ChairKeysWithin(reg', p.chairs)
    requires forall room :: room in reg' && room !in reg ==> |room| > 0 && ')' !in room
    ensures Scanned(p, reg0, visited', reg', dropped') && Owned(p, reg0, visited', reg', dropped', owner')
    ensures Rooted(p, owner', seed', depth') && FirstOwner(p, owner', seed', depth')
  {
    if Named(name) {
      dropped' := dropped;
      owner', seed', depth' := ScanAdopt(p, reg0, visited, reg, dropped, owner, seed, depth,
                                         visited', reg', name, origin, first, order, parent);
    } else {
      dropped', owner', seed', depth' := dropped + (visited' - visited), owner, seed, depth;
      ScanDrop(p, reg0, visited, reg, dropped, owner, visited', reg');
    }
  }

  /** One cell of the scan: `is_coordinate_visitable` guards the call to
      `explore_coordinate`. */
  method ScanCell(p: Plan, reg0: Rooms, c: Cell, visited: set<Cell>, reg: Rooms,
                  ghost dropped: set<Cell>, ghost owner: map<Cell, Cell>, ghost seed: map<Cell, Cell>, ghost depth: map<Cell, nat>)
    returns (visited': set<Cell>, reg': Rooms, ghost dropped': set<Cell>,
             ghost owner': map<Cell, Cell>, ghost seed': map<Cell, Cell>, ghost depth': map<Cell, nat>)
    requires Rectangular(p) && InBounds(p, c)
    requires Scanned(p, reg0, visited, reg, dropped) && Owned(p, reg0, visited, reg, dropped, owner)
    requires Rooted(p, owner, seed, depth) && FirstOwner(p, owner, seed, depth)
    ensures Scanned(p, reg0, visited', reg', dropped') && Owned(p, reg0, visited', reg', dropped', owner')
    ensures Rooted(p, owner', seed', depth') && FirstOwner(p, owner', seed', depth')
    ensures visited <= visited'
    ensures Open(p, c) ==> c in visited'
  {
    visited', reg', dropped', owner', seed', depth' := visited, reg, dropped, owner, seed, depth;
    if Visitable(p, visited, c) {
      ghost var name, origin, first, order, parent;
      visited', reg', name, origin, first, order, parent := ExploreCoordinate(p, visited, reg, c);
      assert order[0] in Elems(order);
      dropped', owner', seed', depth' := ScanStep(p, reg0, visited, reg, dropped, owner, seed, depth,
                                                  visited', reg', name, origin, first, order, parent);
    }
  }

  /** The inner loop of `parse` over the columns of row `x`. */
  method ScanRow(p: Plan, reg0: Rooms, x: int, visited: set<Cell>, reg: Rooms,
                 ghost dropped: set<Cell>, ghost owner: map<Cell, Cell>, ghost seed: map<Cell, Cell>, ghost depth: map<Cell, nat>)
    returns (visited': set<Cell>, reg': Rooms, ghost dropped': set<Cell>,
             ghost owner': map<Cell, Cell>, ghost seed': map<Cell, Cell>, ghost depth': map<Cell, nat>)
    requires Rectangular(p) && 0 <= x < p.rows
    requires Scanned(p, reg0, visited, reg, dropped) && Owned(p, reg0, visited, reg, dropped, owner)
    requires Rooted(p, owner, seed, depth) && FirstOwner(p, owner, seed, depth) && ScannedUpTo(p, visited, x, 0)
    ensures Scanned(p, reg0, visited', reg', dropped') && Owned(p, reg0, visited', reg', dropped', owner')
    ensures Rooted(p, owner', seed', depth') && FirstOwner(p, owner', seed', depth') && ScannedUpTo(p, visited', x + 1, 0)
  {
    visited', reg', dropped', owner', seed', depth' := visited, reg, dropped, owner, seed, depth;
    var y := 0;
    while y < p.cols
      invariant 0 <= y <= p.cols
      invariant Scanned(p, reg0, visited', reg', dropped') && Owned(p, reg0, visited', reg', dropped', owner')
      invariant Rooted(p, owner', seed', depth') && FirstOwner(p, owner', seed', depth') && ScannedUpTo(p, visited', x, y)
    {
      ghost var before := visited';
      visited', reg', dropped', owner', seed', depth' := ScanCell(p, reg0, (x, y), visited', reg', dropped', owner', seed', depth');
      ScannedUpToNext(p, before, visited', x, y);
      y := y + 1;
    }
  }

  /** The dropped cells are closed too: an open neighbour of a dropped cell
      cannot be owned, since ownership passes between open neighbours. */
  lemma DroppedClosed(p: Plan, visited: set<Cell>, dropped: set<Cell>, owner: map<Cell, Cell>)
    requires Rectangular(p) && Closed(p, visited) && Linked(p, owner)
    requires forall c :: c in visited ==> Open(p, c)
    requires dropped <= visited && owner.Keys == visited - dropped
    ensures Closed(p, dropped)
  {
    forall c | c in dropped
      ensures Covered(p, c, dropped)
    {
      forall i | 0 <= i < 4 && Open(p, Neighbours(c)[i])
        ensures Neighbours(c)[i] in dropped
      {
        NeighbourBack(c, i);
      }
    }
  }

  /** The registry's rooms are `reg0`'s plus the names the owning labels
      read: each owner's name was registered, and each newly registered
      room owns some cell. */
  lemma RegistryKeys(p: Plan, reg0: Rooms, reg: Rooms, owner: map<Cell, Cell>)
    requires Rectangular(p) && reg0.Keys <= reg.Keys
    requires forall c :: c in owner ==> InBounds(p, owner[c]) && Lookup(p, owner[c]).Some? && Lookup(p, owner[c]).value in reg
    requires forall room :: room in reg && room !in reg0 ==> RoomCells(p, owner, room) != {}
    ensures reg.Keys == reg0.Keys + RoomNames(p, owner)
  {
    forall room | room in reg && room !in reg0
      ensures room in RoomNames(p, owner)
    {
      var c :| c in RoomCells(p, owner, room);
    }
  }

  /** The scan invariants hold before the first row. */
  lemma ScanStart(p: Plan, reg0: Rooms)
    requires Rectangular(p)
    ensures Scanned(p, reg0, {}, reg0, {}) && Owned(p, reg0, {}, reg0, {}, map[])
    ensures Rooted(p, map[], map[], map[]) && FirstOwner(p, map[], map[], map[]) && ScannedUpTo(p, {}, 0, 0)
  {
    forall ch | ch in p.chairs
      ensures Tiles(p, {}, ch) == {}
    {
    }
    forall room, ch | ch in p.chairs
      ensures Tiles(p, RoomCells(p, map[], room), ch) == {}
    {
      assert RoomCells(p, map[], room) == {};
    }
  }

  /** What the scan invariants give once every row is scanned. */
  lemma ScanFinish(p: Plan, reg0: Rooms, visited: set<Cell>, reg: Rooms, dropped: set<Cell>,
                   owner: map<Cell, Cell>, seed: map<Cell, Cell>, depth: map<Cell, nat>)
    requires Rectangular(p)
    requires Scanned(p, reg0, visited, reg, dropped) && Owned(p, reg0, visited, reg, dropped, owner)
    requires Rooted(p, owner, seed, depth) && FirstOwner(p, owner, seed, depth) && ScannedUpTo(p, visited, p.rows, 0)
    ensures forall c :: InBounds(p, c) ==> (c in visited <==> At(p, c) !in p.walls)
    ensures forall c :: c in visited ==> InBounds(p, c)
    ensures Grows(reg0, reg)
    ensures ChairKeysWithin(reg0, p.chairs) ==> ChairKeysWithin(reg, p.chairs)
    ensures forall room :: room in reg && room !in reg0 ==> |room| > 0 && ')' !in room
    ensures dropped <= visited && Closed(p, dropped)
    ensures forall c :: c in dropped && LabelCell(p, c) ==> Lookup(p, c) == None
    ensures owner.Keys == visited - dropped && Labelled(p, owner) && Linked(p, owner) && Rooted(p, owner, seed, depth)
    ensures reg.Keys == reg0.Keys + RoomNames(p, owner)
    ensures forall room, ch :: ch in p.chairs ==>
      Count(reg, room, ch) == Count(reg0, room, ch) + |Tiles(p, RoomCells(p, owner, room), ch)|
    ensures forall ch :: ch in p.chairs ==> Total(reg, ch) == Total(reg0, ch) + |Tiles(p, visited - dropped, ch)|
    ensures forall ch :: ch !in p.chairs ==> Total(reg, ch) == Total(reg0, ch)
  {
    DroppedClosed(p, visited, dropped, owner);
    RegistryKeys(p, reg0, reg, owner);
  }

  /** `parse`: a fresh visited matrix, then a row-major scan that explores
      from every cell still visitable.  Afterwards exactly the open cells
      are marked, and they fall into two closed parts.  The `dropped` cells
      (ghost) form the unnamed regions: no label cell among them yields a
      name.  Every other marked cell has an owning label cell (ghost
      `owner`), ownership is shared by open neighbours, and each room's
      count of a chair code is `reg0`'s plus the chairs on the cells owned
      by labels reading that room's name; the registry has grown from
      `reg0` by exactly those names.  The ghost `seed` and `depth` give
      every owned cell, and its owner, a common seed with a path of
      decreasing depth back to it (see `OwnerConnected`), and no
      name-yielding label of the same seed lies at a smaller depth than
      the owner. */
  method Parse(p: Plan, reg0: Rooms)
    returns (visited: set<Cell>, reg: Rooms, ghost dropped: set<Cell>,
             ghost owner: map<Cell, Cell>, ghost seed: map<Cell, Cell>, ghost depth: map<Cell, nat>)
    requires Rectangular(p)
    ensures forall c :: InBounds(p, c) ==> (c in visited <==> At(p, c) !in p.walls)
    ensures forall c :: c in visited ==> InBounds(p, c)
    ensures Grows(reg0, reg)
    ensures ChairKeysWithin(reg0, p.chairs) ==> ChairKeysWithin(reg, p.chairs)
    ensures forall room :: room in reg && room !in reg0 ==> |room| > 0 && ')' !in room
    ensures dropped <= visited && Closed(p, dropped)
    ensures forall c :: c in dropped && LabelCell(p, c) ==> Lookup(p, c) == None
    ensures owner.Keys == visited - dropped && Labelled(p, owner) && Linked(p, owner) && Rooted(p, owner, seed, depth) && FirstOwner(p, owner, seed, depth)
    ensures reg.Keys == reg0.Keys + RoomNames(p, owner)
    ensures forall room, ch :: ch in p.chairs ==>
      Count(reg, room, ch) == Count(reg0, room, ch) + |Tiles(p, RoomCells(p, owner, room), ch)|
    ensures forall ch :: ch in p.chairs ==> Total(reg, ch) == Total(reg0, ch) + |Tiles(p, visited - dropped, ch)|
    ensures forall ch :: ch !in p.chairs ==> Total(reg, ch) == Total(reg0, ch)
  {
    visited, reg, dropped, owner, seed, depth := {}, reg0, {}, map[], map[], map[];
    ScanStart(p, reg0);
    var x := 0;
    while x < p.rows
      invariant 0 <= x <= p.rows
      invariant Scanned(p, reg0, visited, reg, dropped) && Owned(p, reg0, visited, reg, dropped, owner)
      invariant Rooted(p, owner, seed, depth) && FirstOwner(p, owner, seed, depth) && ScannedUpTo(p, visited, x, 0)
    {
      visited, reg, dropped, owner, seed, depth := ScanRow(p, reg0, x, visited, reg, dropped, owner, seed, depth);
      x := x + 1;
    }
    ScanFinish(p, reg0, visited, reg, dropped, owner, seed, depth);
  }
}

=== FILE: reader.dfy ===
/** `read_floor_plan`'s list processing: every line loses its trailing
    whitespace, the longest stripped line sets the column count, and the
    shorter rows are padded with spaces to it.  Opening and decoding the
    file are not modelled: the input is the sequence of lines the file
    iterator yields, terminators included. */
module Reader {
  import opened Wrappers
  import opened Grid

  /** Python's `str.isspace` on one character: the characters `rstrip()`
      removes. */
  predicate IsSpace(c: char) {
    var n := c as int;
    || (0x09 <= n <= 0x0D) || (0x1C <= n <= 0x20) || n == 0x85 || n == 0xA0 || n == 0x1680
    || (0x2000 <= n <= 0x200A) || n == 0x2028 || n == 0x2029 || n == 0x202F || n == 0x205F || n == 0x3000
  }

  /** `s` consists of whitespace only. */
  predicate AllSpace(s: string) {
    forall i :: 0 <= i < |s| ==> IsSpace(s[i])
  }

  /** `r` is `s` with its trailing whitespace removed: a prefix of `s`
      not ending in whitespace, followed in `s` by whitespace only. */
  predicate IsRStrip(s: string, r: string) {
    && r <= s
    && (|r| > 0 ==> !IsSpace(r[|r| - 1]))
    && AllSpace(s[|r|..])
  }

  /** `line.rstrip()`. */
  function RStrip(s: string): (r: string)
    ensures IsRStrip(s, r)
  {
    if |s| > 0 && IsSpace(s[|s| - 1]) then
      var r := RStrip(s[..|s| - 1]);
      assert s[|r|..] == s[..|s| - 1][|r|..] + [s[|s| - 1]];
      r
    else s
  }

  /** Every stripping of `s` is the one `RStrip` computes. */
  lemma {:induction false} IsRStripIsRStrip(s: string, r: string)
    requires IsRStrip(s, r)
    ensures r == RStrip(s)
    decreases |s|
  {
    if |s| > 0 && IsSpace(s[|s| - 1]) {
      var s' := s[..|s| - 1];
      assert |r| < |s|;
      assert s'[|r|..] == s[|r|..][..|s'| - |r|];
      IsRStripIsRStrip(s', r);
    } else {
      assert AllSpace(s[|r|..]);
    }
  }

  /** There is exactly one way to strip a string. */
  lemma {:induction false} IsRStripUnique(s: string, r: string, t: string)
    requires IsRStrip(s, r) && IsRStrip(s, t)
    ensures r == t
  {
    IsRStripIsRStrip(s, r);
    IsRStripIsRStrip(s, t);
  }

  /** Stripping twice strips nothing more. */
  lemma RStripIdempotent(s: string)
    ensures RStrip(RStrip(s)) == RStrip(s)
  {
    var r := RStrip(s);
    assert r[|r|..] == [];
    IsRStripUnique(r, r, RStrip(r));
  }

  /** Padding a stripped line with spaces and stripping it again gives the
      stripped line back. */
  lemma RStripPadded(s: string, cols: nat)
    requires |RStrip(s)| <= cols
    ensures RStrip(Pad(RStrip(s), cols)) == RStrip(s)
  {
    var r := RStrip(s);
    var p := Pad(r, cols);
    assert p[..|r|] == r;
    assert AllSpace(p[|r|..]);
    IsRStripUnique(p, r, RStrip(p));
  }

  /** `max(len(row) for row in rows)`. */
  function MaxLen(rows: seq<string>): (m: nat)
    requires |rows| > 0
    ensures forall i :: 0 <= i < |rows| ==> |rows[i]| <= m
    ensures exists i :: 0 <= i < |rows| && |rows[i]| == m
  {
    if |rows| == 1 then |rows[0]|
    else
      var m := MaxLen(rows[1..]);
      assert forall i :: 1 <= i < |rows| ==> rows[i] == rows[1..][i - 1];
      if |rows[0]| >= m then |rows[0]| else m
  }

  /** `row + [" "] * (cols - len(row))`. */
  function Pad(row: string, cols: nat): (r: string)
    requires |row| <= cols
    ensures |r| == cols && r[..|row|] == row
    ensures forall i :: |row| <= i < cols ==> r[i] == ' '
  {
    row + seq(cols - |row|, _ => ' ')
  }

  datatype ReadError = EmptyFile

  /** The grid and its dimensions, as `read_floor_plan` returns them. */
  datatype Loaded = Loaded(grid: seq<seq<char>>, rows: nat, cols: nat)

  /** The list processing of `read_floor_plan`.  An empty file makes `max`
      raise on an empty sequence, modelled as `EmptyFile`. */
  function Read(lines: seq<string>): (r: Result<Loaded, ReadError>)
    ensures r.Failure? <==> |lines| == 0
    ensures r.Success? ==>
      && r.value.rows == |lines| == |r.value.grid|
      && (forall i :: 0 <= i < |lines| ==> |RStrip(lines[i])| <= r.value.cols)
      && (exists i :: 0 <= i < |lines| && |RStrip(lines[i])| == r.value.cols)
      && (forall i :: 0 <= i < |lines| ==>
            && |r.value.grid[i]| == r.value.cols
            && r.value.grid[i][..|RStrip(lines[i])|] == RStrip(lines[i])
            && (forall j :: |RStrip(lines[i])| <= j < r.value.cols ==> r.value.grid[i][j] == ' '))
  {
    if |lines| == 0 then Failure(EmptyFile)
    else
      var stripped := seq(|lines|, i requires 0 <= i < |lines| => RStrip(lines[i]));
      var cols := MaxLen(stripped);
      assert forall i :: 0 <= i < |lines| ==> stripped[i] == RStrip(lines[i]);
      Success(Loaded(seq(|lines|, i requires 0 <= i < |lines| => Pad(stripped[i], cols)), |lines|, cols))
  }

  /** A loaded plan is rectangular, so the parser can run on it, and
      stripping any of its rows gives back the stripped input line. */
  lemma ReadRectangular(lines: seq<string>, walls: set<char>, chairs: set<char>)
    requires |lines| > 0
    ensures var l := Read(lines).value;
      && Rectangular(Plan(l.grid, l.rows, l.cols, walls, chairs))
      && forall i :: 0 <= i < |lines| ==> RStrip(l.grid[i]) == RStrip(lines[i])
  {
    var l := Read(lines).value;
    forall i | 0 <= i < |lines|
      ensures RStrip(l.grid[i]) == RStrip(lines[i])
    {
      var r := RStrip(lines[i]);
      assert l.grid[i] == Pad(r, l.cols);
      RStripPadded(lines[i], l.cols);
    }
  }
}

=== FILE: registry.dfy ===
/** The room registry (`room_mappings`): room name to chair tally, and the
    rule that folds one explored region into it. */
module Registry {
  import opened Wrappers

  /** Chair character to count. */
  type Tally = map<char, nat>

  /** Room name to chair tally. */
  type Rooms = map<string, Tally>

  /** `dict.get(chair, 0)`. */
  function Get(t: Tally, ch: char): nat {
    if ch in t then t[ch] else 0
  }

  /** The count of `ch` recorded for `room`, zero when either is missing. */
  function Count(reg: Rooms, room: string, ch: char): nat {
    if room in reg then Get(reg[room], ch) else 0
  }

  /** Python's truth test `if area_name:` on an optional string. */
  predicate Named(name: Option<string>) {
    name.Some? && name.value != ""
  }

  /** The fresh tally of one region: every chair type at zero. */
  function ZeroTally(chairs: set<char>): (t: Tally)
    ensures t.Keys == chairs
    ensures forall ch :: Get(t, ch) == 0
  {
    map ch | ch in chairs :: 0
  }

  /** The merge loop: each count of `chairs` added to the existing entry. */
  function AddCounts(existing: Tally, chairs: Tally): (r: Tally)
    ensures r.Keys == existing.Keys + chairs.Keys
    ensures forall ch :: Get(r, ch) == Get(existing, ch) + Get(chairs, ch)
  {
    map ch | ch in existing.Keys + chairs.Keys :: Get(existing, ch) + Get(chairs, ch)
  }

  /** Folds one region's result into the registry.  A named region adds
      its counts to an existing entry of that name or becomes a new entry;
      an unnamed region is dropped; no other room is touched. */
  function Merge(reg: Rooms, name: Option<string>, chairs: Tally): (r: Rooms)
    ensures !Named(name) ==> r == reg
    ensures Named(name) ==> r.Keys == reg.Keys + {name.value}
    ensures Named(name) && name.value !in reg ==> r[name.value] == chairs
    ensures forall room, ch :: Count(r, room, ch) == Count(reg, room, ch) + (if Named(name) && room == name.value then Get(chairs, ch) else 0)
    ensures forall room :: room in reg && (!Named(name) || room != name.value) ==> room in r && r[room] == reg[room]
  {
    if Named(name) then
      if name.value in reg then reg[name.value := AddCounts(reg[name.value], chairs)]
      else reg[name.value := chairs]
    else reg
  }

  /** The registry only grows: no room disappears, no count goes down. */
  ghost predicate Grows(reg: Rooms, reg': Rooms) {
    && reg.Keys <= reg'.Keys
    && forall room, ch :: Count(reg, room, ch) <= Count(reg', room, ch)
  }

  /** Every tally of the registry counts only the given chair types. */
  predicate ChairKeysWithin(reg: Rooms, chairs: set<char>) {
    forall room :: room in reg ==> reg[room].Keys <= chairs
  }

  lemma MergeGrows(reg: Rooms, name: Option<string>, chairs: Tally)
    ensures Grows(reg, Merge(reg, name, chairs))
  {
  }

  lemma MergeKeepsChairKeys(reg: Rooms, name: Option<string>, chairs: Tally, types: set<char>)
    requires ChairKeysWithin(reg, types) && chairs.Keys <= types
    ensures ChairKeysWithin(Merge(reg, name, chairs), types)
  {
  }

  /** Merging two regions in either order yields the same registry: the
      aggregated counts do not depend on which region the scan meets first. */
  lemma MergeCommutes(reg: Rooms, a: Option<string>, ta: Tally, b: Option<string>, tb: Tally)
    ensures Merge(Merge(reg, a, ta), b, tb) == Merge(Merge(reg, b, tb), a, ta)
  {
    if Named(a) && Named(b) {
      if a.value == b.value {
        MergeSameCommutes(reg, a.value, ta, tb);
      } else {
        MergeDistinctCommutes(reg, a.value, ta, b.value, tb);
      }
    }
  }

  lemma MergeSameCommutes(reg: Rooms, n: string, ta: Tally, tb: Tally)
    requires n != ""
    ensures Merge(Merge(reg, Some(n), ta), Some(n), tb) == Merge(Merge(reg, Some(n), tb), Some(n), ta)
  {
    if n in reg {
      AddCountsSwap(reg[n], ta, tb);
    } else {
      AddCountsCommute(ta, tb);
    }
  }

  lemma MergeDistinctCommutes(reg: Rooms, n: string, ta: Tally, m: string, tb: Tally)
    requires n != "" && m != "" && n != m
    ensures Merge(Merge(reg, Some(n), ta), Some(m), tb) == Merge(Merge(reg, Some(m), tb), Some(n), ta)
  {
    var x := if n in reg then AddCounts(reg[n], ta) else ta;
    var y := if m in reg then AddCounts(reg[m], tb) else tb;
    var r1, r2 := reg[n := x], reg[m := y];
    assert r1[m := y] == r2[n := x];
  }

  lemma AddCountsCommute(x: Tally, y: Tally)
    ensures AddCounts(x, y) == AddCounts(y, x)
  {
  }

  lemma AddCountsSwap(e: Tally, x: Tally, y: Tally)
    ensures AddCounts(AddCounts(e, x), y) == AddCounts(AddCounts(e, y), x)
  {
    var l, r := AddCounts(AddCounts(e, x), y), AddCounts(AddCounts(e, y), x);
    assert l.Keys == r.Keys;
    forall ch | ch in l
      ensures l[ch] == r[ch]
    {
      assert Get(l, ch) == Get(r, ch);
    }
  }

  /** The sum of `ch` over all rooms, independent of any key order. */
  ghost function Total(reg: Rooms, ch: char): nat
    decreases |reg|
  {
    if reg == map[] then 0
    else
      var room :| room in reg;
      assert (reg - {room}).Keys == reg.Keys - {room};
      Get(reg[room], ch) + Total(reg - {room}, ch)
  }

  /** Any room can be taken out of the total first. */
  lemma {:induction false} TotalRemove(reg: Rooms, room: string, ch: char)
    requires room in reg
    ensures Total(reg, ch) == Get(reg[room], ch) + Total(reg - {room}, ch)
    decreases |reg|
  {
    var chosen :| chosen in reg && Total(reg, ch) == Get(reg[chosen], ch) + Total(reg - {chosen}, ch);
    if chosen != room {
      var rest := reg - {chosen};
      assert rest.Keys == reg.Keys - {chosen};
      assert room in rest;
      TotalRemove(rest, room, ch);
      var both := rest - {room};
      assert (reg - {room}).Keys == reg.Keys - {room};
      assert chosen in reg - {room};
      TotalRemove(reg - {room}, chosen, ch);
      assert (reg - {room}) - {chosen} == both;
    }
  }

  /** Merging a named region adds exactly its tally to the total over all
      rooms; merging an unnamed one adds nothing. */
  lemma MergeTotal(reg: Rooms, name: Option<string>, chairs: Tally, ch: char)
    ensures Total(Merge(reg, name, chairs), ch) == Total(reg, ch) + (if Named(name) then Get(chairs, ch) else 0)
  {
    if Named(name) {
      var n := name.value;
      var r := Merge(reg, name, chairs);
      TotalRemove(r, n, ch);
      if n in reg {
        TotalRemove(reg, n, ch);
        assert r - {n} == reg - {n};
      } else {
        assert r - {n} == reg;
      }
    }
  }
}

=== FILE: wrappers.dfy ===
/** Option and Result values standing in for Python's `None` and for the
    exceptions the analyser raises on malformed input. */
module Wrappers {

  /** A value that may be absent, as `Optional[str]` is in the analyser. */
  datatype Option<+T> = None | Some(value: T)

  /** Either a computed value or the error the source would raise instead. */
  datatype Result<+R, +E> = Success(value: R) | Failure(error: E)
}
